=== FILE: README.md ===
# Voice navigation core of the onboarding app, in Dafny

This project models the logic that lets a user pick a language and step through onboarding by voice. It covers four parts:

- **Language selection.** `LanguageScreen.js` has a transcript normaliser (`cleanText`) and a fuzzy word matcher (`fuzzyMatch`). The matcher accepts on substring containment or on a Levenshtein distance of at most 2. The screen's `handleWakeText` tries the languages in a fixed order, Hindi, then English, then Marathi. Only the first language heard is acted on, and only while the screen is active.
- **Onboarding navigation.** `OnboardingScreen.js` has its own normaliser, which does not collapse inner spaces. Keywords match by containment only. The step index is clamped; on one transcript the "next" update and the "previous" update can both fire, in that order. The next and previous buttons are modelled too, as is the language code chosen on mount.
- **The language screen's wake loop** (`wake.js`):
  - a `LOOP_ACTIVE` flag;
  - a `retryBoost` counter that picks a 1000 ms or 1400 ms recording window;
  - per-outcome counter updates and delays.
- **The onboarding wake loop** (`wake_onboarding.js`):
  - the same flag, plus a `loopPromise` handle that keeps it to one loop;
  - a fixed 900 ms window;
  - a `currentRecording` reference that is taken at the start of each iteration and released after the URI is read, on exit and on stop;
  - every successful response is passed to the callback, even an empty one.

Modules, one per concern:

| module | file | what it holds |
|---|---|---|
| `Chars` | chars.dfy | character classes: letters, combining marks, JavaScript white space, ASCII lower-casing |
| `Text` | text.dfy | lower-casing, the letter/mark/space filter, trimming, white-space collapsing, substring search |
| `EditDistance` | edit_distance.dfy | the recursive edit distance and the dynamic-programming table that computes it |
| `LanguageScreen` | language_screen.dfy | `cleanText`, `fuzzyMatch`, language priority, `handleWakeText` |
| `OnboardingScreen` | onboarding_screen.dfy | the onboarding normaliser, keyword lists, step moves, buttons, language code |
| `LoopOutcome` | loop_outcome.dfy | what one loop iteration's I/O produced (the model's input) |
| `WakeLoop` | wake.dfy | `startWakeLoop` / `stopWakeLoop` as a state machine |
| `WakeLoopOnboarding` | wake_onboarding.dfy | `startWakeLoopOnboarding` / `stopWakeLoopOnboarding` as a state machine |
| `Optional` | optional.dfy | `Option` |

### How the loops are modelled

Each loop is a state machine driven by five events:

- `Start`: a call to the start function, up to its `await` on the permission request. It tests and sets the flag. In the onboarding loop it also records the callback it was given.
- `Resolve(permission)`: one outstanding permission request settles. It is granted, denied, or the request itself rejects. In the onboarding loop the event names which outstanding call settles.
- `Stop`: a call to the stop function.
- `Check`: a running loop tests `while (LOOP_ACTIVE)`.
- `Body(outcome)`: a running loop finishes one iteration. The outcome is what the recorder, upload and JSON parse produced: no URI, a failed upload, a non-success status, a text, a falsy JSON body, a body that is not JSON, or a thrown exception.

Any event may fall between a call's `Start` and its `Resolve`, and between a loop's `Check` and its `Body`. That includes other starts, stops, and in `wake.js` the events of another running copy.

A granted request is the exception. The code after the permission `await` runs without yielding into the loop's first flag test (`wake.js` has the loop inline, the onboarding file calls `runLoop`), and in the onboarding loop on through the `currentRecording` assignment to its next `await`. So `Resolve(Granted)` with the flag set puts the new copy straight inside its first iteration (holding the recorder in the onboarding loop), and with the flag cleared the `wake.js` copy exits within the same event.

The state counts the running loop copies at the test and inside an iteration, and the calls still waiting for permission. This exposes a difference between the two files:

- `wake.js` guards only on the flag, so stop followed by start leaves two copies running.
- `wake_onboarding.js` never runs more than one loop, and a running loop always has `loopPromise` set. The converse fails: `loopPromise` can stay set with no loop behind it (see Findings).

Recording, uploading and waiting are outside the model. The chunk length and the delay an iteration would wait are returned as numbers.

### Behaviour of the code worth knowing (the model follows the code)

- **Only plain spaces separate words in `cleanText`.** The filter at LanguageScreen.js:17 deletes tabs and line breaks before the collapse at line 18 runs, so "hindi\tplease" cleans to "hindiplease" (`LanguageScreen.CleanTextJoinsAcrossTab`). The collapse only ever meets plain spaces.
- **Stop does not cut off the callback.** In both loops, an iteration that was already past its flag test still calls back after stop. Nothing between the response and the callback reads the flag. See `WakeLoop.CallbackAfterStop`, `WakeLoopOnboarding.CallbackAfterStop` and the two after-stop bounds.
- **`wake.js` can run two loops.** A stop followed by a start, before the old copy re-tests the flag, leaves two copies running (`WakeLoop.RestartRunsTwoCopies`). The onboarding loop prevents this with `loopPromise`. In that case the old loop keeps the first caller's callback (`WakeLoopOnboarding.RestartKeepsOldCallback`).
- **A permission answer can undo a later start.** In both files a denial clears the flag, even when a later start set it. In `wake.js` a stop, a new start and then a denial of the first request leaves nothing running (`WakeLoop.DenialCancelsLaterStart`).
- **A grant after a stop.** `wake.js` does not re-read the flag after the permission request. Its copy then meets the cleared flag at once and exits (`WakeLoop.GrantAfterStopExits`). The onboarding loop behaves differently; see Findings.
- **A malformed response is not always "treated as empty text".**
  - In `wake.js`, `res.json()` is awaited outside any inner `try`. A body that is not JSON therefore takes the exception path: the counter is unchanged and the delay is 160 ms.
  - In `wake_onboarding.js` such a body passes nothing to the callback and waits the usual 120 ms.
- **The onboarding loop has no retry counter.** It always records 900 ms and passes `json.text || ""` to its callback, empty or not.
- **Normalisation happens in the screen, not the loop.** The onboarding loop passes the raw text and the screen normalises it.
- **A recording can outlive its iteration.** In the onboarding loop, an exception before the URI is read leaves `currentRecording` set until the next iteration or the loop's exit. `wake.js` keeps no recording reference, so its stop releases nothing.
- **A permission request that rejects, rather than resolving "not granted", leaves the flag set and starts nothing**, in both files. Every later start is then a no-op until a stop.

## Model

| member | source | states |
|---|---|---|
| Chars.ToLower | LanguageScreen.js:15 | lower-casing maps an ASCII capital to its small letter (code point + 32) and leaves every other character unchanged |
| Chars.ToLowerPreservesClass | LanguageScreen.js:15-17 | lower-casing neither creates nor removes a letter, mark or space, so it does not change what the filter keeps |
| Chars.KeptWhitespaceIsSpace | LanguageScreen.js:17-18 | among the characters the filter keeps, the only white space is the plain space, so the collapse step can only meet spaces |
| Text.Lower | LanguageScreen.js:15 | under the modelled fold (ASCII capitals only), lower-casing maps each character in place and keeps the length; JavaScript's `toLowerCase` can differ outside that subset (see Left out) |
| Text.KeepLettersMarksSpace | LanguageScreen.js:17 | the filter keeps exactly the letters, combining marks and spaces of its input and nothing else |
| Text.KeepAppend | LanguageScreen.js:17 | the filter works character by character: filtering a concatenation is concatenating the filtered parts, so every kept character stays where it was relative to the others |
| Text.KeepSingle | LanguageScreen.js:17 | one character is kept when it is a letter, a mark or a space, and dropped otherwise |
| Text.Trim | LanguageScreen.js:19 | `trim` leaves no white space at either end |
| Text.TrimCutsOnlyWhitespace | LanguageScreen.js:19 | `trim` keeps one contiguous piece of its input, and everything it cuts off on either side is white space |
| Text.TrimEmptyIff | LanguageScreen.js:19 | `trim` gives the empty string exactly when the input is all white space |
| Text.CollapseWhitespace | LanguageScreen.js:18 | replacing `\s+` by one space gives the empty string exactly for the empty input |
| Text.CollapseChars | LanguageScreen.js:18 | every character of the collapsed text is a space or a non-white-space character of the input |
| Text.CollapseSingleSpaces | LanguageScreen.js:18 | the collapsed text has no two adjacent white-space characters |
| Text.TrimStartAppend | LanguageScreen.js:18-19 | the leading white space of a concatenation is all of the first part and then the second's, when the first part is all white space, and otherwise lies inside the first part |
| Text.CollapseOfRun | LanguageScreen.js:18 | a non-empty run of white space collapses to exactly one space |
| Text.CollapseAppend | LanguageScreen.js:18 | when no white-space run straddles the join, collapsing a concatenation collapses each part separately |
| Text.CollapseWordThenRun | LanguageScreen.js:18 | read word by word, the collapse keeps each word as it is, turns the run after it into exactly one space, and carries on from the next word |
| Text.Contains | LanguageScreen.js:23 | `includes` as a search over start positions; its meaning is stated by `Text.ContainsIffSlice` and `Text.ContainsNeedsLength` |
| Text.ContainsIffSlice | LanguageScreen.js:23 | `includes` holds exactly when the word occurs at some position of the text |
| Text.ContainsNeedsLength | LanguageScreen.js:23 | a word longer than the text is never contained in it |
| Text.KeepPreservesLetters | LanguageScreen.js:17 | filtering drops no letter or mark and keeps their order |
| Text.CollapsePreservesLetters | LanguageScreen.js:18 | collapsing white space drops no letter or mark and keeps their order |
| Text.TrimPreservesLetters | LanguageScreen.js:19 | trimming drops no letter or mark and keeps their order |
| Text.CollapseIdentity | LanguageScreen.js:18 | a text whose only white space is single spaces is left unchanged by the collapse |
| Text.LowerPreservesLetterPresence | LanguageScreen.js:15 | lower-casing a text gives it letters or marks exactly when it had them |
| EditDistance.Min3 | LanguageScreen.js:40-44 | `Math.min` of three costs is one of them and no larger than any |
| EditDistance.DistanceOfPrefixes | LanguageScreen.js:39-44 | the edit distance of two non-empty prefixes is the cheapest of deleting, inserting, or replacing (free when equal) their last characters |
| EditDistance.NextRow | LanguageScreen.js:37-45 | filling row i of the table from row i-1 makes every cell the edit distance of the matching prefixes |
| EditDistance.Levenshtein | LanguageScreen.js:29-48 | the table's last cell is the edit distance of the two strings |
| EditDistance.AppendIsOneEdit | LanguageScreen.js:39-44 | appending one character to a string puts it at distance exactly one: one insertion, and no fewer edits |
| EditDistance.CommonLastIsFree | LanguageScreen.js:39-44 | a last character the two strings share costs nothing: the distance is at most that of what precedes it |
| EditDistance.DistanceToEmpty | LanguageScreen.js:34-35 | the distance to or from the empty string is the other string's length (the table's first column and row) |
| EditDistance.DistanceZeroIff | LanguageScreen.js:29-48 | the distance is zero exactly when the strings are equal |
| EditDistance.DistanceSymmetric | LanguageScreen.js:29-48 | the distance does not depend on the order of its arguments |
| EditDistance.DistanceAtLeastLengthGap | LanguageScreen.js:29-48 | the distance is at least the difference of the lengths |
| EditDistance.DistanceAtMostLonger | LanguageScreen.js:29-48 | the distance is at most the longer length |
| EditDistance.DistanceOfDisjoint | LanguageScreen.js:29-48 | strings with no character in common are exactly the longer length apart |
| LanguageScreen.CleanText | LanguageScreen.js:13-19 | the cleaned text is lower-case letters, marks and single inner spaces, with no space at either end |
| LanguageScreen.CleanTextKeepsWordBoundary | LanguageScreen.js:17-19 | two clean words separated by any number of spaces come out separated by exactly one space |
| LanguageScreen.CleanTextJoinsAcrossTab | LanguageScreen.js:17-18 | a tab or other white space that is not a plain space, between two words, is deleted by the filter before the collapse, so the two words are joined |
| LanguageScreen.CleanTextIdempotent | LanguageScreen.js:13-19 | cleaning a cleaned text changes nothing |
| LanguageScreen.CleanTextOfEmpty | LanguageScreen.js:13 | the default empty transcript cleans to empty |
| LanguageScreen.CleanTextKeepsLetters | LanguageScreen.js:13-19 | cleaning keeps every letter and mark of the lower-cased transcript, in order, and adds none |
| LanguageScreen.CleanTextEmptyIff | LanguageScreen.js:13-19 | a transcript cleans to empty exactly when it has no letter or mark |
| LanguageScreen.FuzzyMatch | LanguageScreen.js:21-27 | the matching rule the screen uses; `LanguageScreen.MatchWord` computes it the source's way, and the lemmas below state what it accepts and rejects |
| LanguageScreen.MatchWord | LanguageScreen.js:21-27 | a word matches a non-empty text exactly when it occurs in it or is at most two edits from the whole text; empty text never matches; the result is `FuzzyMatch` |
| LanguageScreen.NoMatchOnEmptyText | LanguageScreen.js:22 | nothing matches an empty text |
| LanguageScreen.ContainedWordMatches | LanguageScreen.js:23 | a word that occurs in a non-empty text matches |
| LanguageScreen.LengthGapRejects | LanguageScreen.js:25-26 | a word that is not contained and whose length differs from the text's by more than two never matches |
| LanguageScreen.HeloMatchesHello | LanguageScreen.js:21-27 | "helo" matches "hello" (one edit) |
| LanguageScreen.XyzDoesNotMatchHello | LanguageScreen.js:21-27 | "xyz" does not match "hello" |
| LanguageScreen.WordInSentenceMatches | LanguageScreen.js:23 | "next" matches "i want to go next please" by containment |
| LanguageScreen.Spoken | LanguageScreen.js:72 | a language is heard when some word of its list fuzzy-matches the cleaned text; used by `LanguageScreen.FirstSpoken` and `LanguageScreen.DispatchFollowsPriority` |
| LanguageScreen.FirstSpoken | LanguageScreen.js:72-90 | the chosen language is one whose candidate words match, it sits at a position of the order before which no language is heard, and there is none exactly when no language's words match |
| LanguageScreen.HandleWakeText | LanguageScreen.js:64-91 | an inactive screen or a transcript that cleans to empty does nothing; otherwise the handler does nothing or stops the loop and then navigates once |
| LanguageScreen.DispatchFollowsPriority | LanguageScreen.js:64-91 | the handler stops the loop and navigates to a language exactly when the screen is active, the cleaned text is non-empty and that language is the first in Hindi, English, Marathi order whose words match |
| LanguageScreen.NothingUnlessSpoken | LanguageScreen.js:64-91 | the handler does nothing exactly when the screen is inactive, the cleaned text is empty, or no language's words match it |
| LanguageScreen.FirstSpokenInPriority | LanguageScreen.js:74-90 | the first language heard is Hindi if Hindi is heard, else English if English is heard, else Marathi if heard |
| LanguageScreen.HindiWins | LanguageScreen.js:74-78 | when Hindi is heard the handler navigates to Hindi, whatever else is heard |
| LanguageScreen.EnglishBeforeMarathi | LanguageScreen.js:80-84 | when Hindi is not heard and English is, the handler navigates to English even if Marathi is heard |
| OnboardingScreen.Normalize | OnboardingScreen.js:250-254 | the onboarding normaliser yields lower-case letters, marks and spaces with no space at either end |
| OnboardingScreen.NormalizeIdempotent | OnboardingScreen.js:250-254 | normalising twice is normalising once |
| OnboardingScreen.NormalizeKeepsLetters | OnboardingScreen.js:250-254 | normalising keeps every letter and mark of the lower-cased transcript, in order, and adds none |
| OnboardingScreen.NormalFormFixed | OnboardingScreen.js:250-254 | any lower-case text of letters, marks and spaces without edge spaces is already normal |
| OnboardingScreen.DoubleSpaceSurvives | OnboardingScreen.js:250-254 | unlike the language screen's cleaner, this normaliser keeps a double inner space ("a  b") |
| OnboardingScreen.SaysAnyIffOccurs | OnboardingScreen.js:260-267 | a keyword list fires exactly when one of its keywords occurs at some position of the text |
| OnboardingScreen.NearMissDoesNotFire | OnboardingScreen.js:96-104 | a near miss such as "nxt" fires neither list: there is no edit-distance fallback here |
| OnboardingScreen.KeywordInsideWordFires | OnboardingScreen.js:96-99 | containment also fires inside a longer word: "what" fires the "next" list through "ha" |
| OnboardingScreen.Move | OnboardingScreen.js:264 | the clamped step update `Math.min(s + 1, n - 1)` / `Math.max(s - 1, 0)`; `OnboardingScreen.MoveStaysInRange` states its range and step size |
| OnboardingScreen.MoveStaysInRange | OnboardingScreen.js:264-271 | a clamped move keeps a valid step valid and moves by exactly one unless it is at the end it moves toward |
| OnboardingScreen.HandleWakeText | OnboardingScreen.js:249-273 | the voice handler; `OnboardingScreen.EmptyTranscriptIgnored` and `OnboardingScreen.VoiceStepUpdate` state what it does for each kind of transcript |
| OnboardingScreen.EmptyTranscriptIgnored | OnboardingScreen.js:256 | a transcript that normalises to nothing changes nothing |
| OnboardingScreen.VoiceStepUpdate | OnboardingScreen.js:249-273 | a non-empty transcript is shown; the step moves forward if only a next keyword occurs, back if only a previous one does, forward then back if both do, and not at all otherwise; any keyword stops listening and the loop |
| OnboardingScreen.BothKeywordsOnLastStep | OnboardingScreen.js:260-272 | "haan peeche" on the last of three steps ends on the middle step |
| OnboardingScreen.NextButton | OnboardingScreen.js:290-294 | the next button stops audio and the loop, clears the recognised text and moves one clamped step forward; `OnboardingScreen.StepStaysInRange` keeps it in range |
| OnboardingScreen.PrevButton | OnboardingScreen.js:296-300 | the previous button stops audio and the loop, clears the recognised text and moves one clamped step back; `OnboardingScreen.StepStaysInRange` keeps it in range |
| OnboardingScreen.StepStaysInRange | OnboardingScreen.js:249-300 | whatever is said or pressed, the step index stays within the step list |
| OnboardingScreen.LanguageCode | OnboardingScreen.js:90-94 | the i18n code chosen on mount; `OnboardingScreen.LanguageCodes` states which language gets which |
| OnboardingScreen.LanguageCodes | OnboardingScreen.js:90-94 | Hindi, Marathi and English get the distinct codes "hi", "mr", "en", and any other parameter gets "en" |
| WakeLoop.RunBody | wake.js:50-96 | one iteration: 1400 ms window once the counter exceeds one; a non-empty trimmed text resets the counter and is the only thing passed on; a missing URI, failed or non-success upload or empty text adds one; a throw or unparsable body leaves the counter and waits 160 ms |
| WakeLoop.OutcomeClasses | wake.js:56-96 | every iteration is productive, a miss or a throw, and never both productive and a miss |
| WakeLoop.Next | wake.js:10-21 | the lifecycle as events; `WakeLoop.StartRules`, `WakeLoop.ResolveRules`, `WakeLoop.StopOnlyClearsFlag` and `WakeLoop.StoppedCopyExits` state each event's effect |
| WakeLoop.StartRules | wake.js:11-14 | start does nothing while the flag is set; otherwise it sets the flag and waits for permission, starting no copy yet |
| WakeLoop.ResolveRules | wake.js:14-24 | when a request settles: a grant with the flag set adds one copy, already inside its first iteration; a grant with the flag cleared adds none, its copy having left at the first test; a denial clears the flag and starts nothing; a rejected request changes nothing else |
| WakeLoop.StopOnlyClearsFlag | wake.js:100-102 | stop clears the flag and nothing else, running copies included; stopping a stopped loop changes nothing |
| WakeLoop.StoppedCopyExits | wake.js:21 | a copy that tests the cleared flag leaves the loop |
| WakeLoop.AfterStopOnlyInFlightCallbacks | wake.js:21-102 | after stop, without a new start, the callback fires at most once per iteration already under way |
| WakeLoop.CallbackAfterStop | wake.js:78-84 | an iteration under way when the loop is stopped still calls back |
| WakeLoop.RestartRunsTwoCopies | wake.js:10-21 | start, grant, stop, start, grant leaves two copies running |
| WakeLoop.GrantAfterStopExits | wake.js:14-24 | a grant that arrives after a stop starts a copy that leaves at its first test, so start, stop, grant ends in the initial state |
| WakeLoop.DenialCancelsLaterStart | wake.js:14-19 | start, stop, start, then a denial of the first request clears the flag the second start set, and the second grant runs nothing |
| WakeLoop.NothingRunsUntilStop | wake.js:11 | with the flag set and nothing running or waiting, no event but a stop changes anything |
| WakeLoop.RejectedPermissionRequestSticks | wake.js:11-14 | after a rejected permission request the flag is set, nothing runs, and every later event short of a stop changes nothing |
| WakeLoop.BoostStep | wake.js:56-90 | one more body at the front: the counter threads through it, a miss adds one to the count, and a productive body becomes the last productive one unless a later one exists, resetting the counter |
| WakeLoop.BoostCountsMissesSinceSuccess | wake.js:56-90 | the counter equals the misses since the last productive iteration, or the initial value plus all misses when there was none; throws do not count |
| WakeLoop.CallbacksAreProductiveTexts | wake.js:78-87 | the callback receives exactly the trimmed productive texts, in order |
| WakeLoop.SingleCopyFollowsIterations | wake.js:21-97 | one copy running with the flag set moves the counter and calls back exactly as its iterations do one after another |
| WakeLoop.EmptyEmptyThenText | wake.js:50-90 | two empty transcripts and then a spoken one read the counter as 1, 2, 0, use windows of 1000, 1000 and 1400 ms, and call back once with the trimmed text |
| WakeLoop.HaanNextAfterTwoEmpty | wake.js:78-87 | "", "" then "हाँ next" leaves the counter at 2 and then 0, and calls back with "हाँ next" |
| WakeLoopOnboarding.RunBody | wake_onboarding.js:30-113 | one iteration: a fixed 900 ms window; every successful response with a parsed body passes its text, even an empty one, and nothing else passes anything; the recorder is released unless the iteration threw; delays of 100, 120 or 150 + 120 ms |
| WakeLoopOnboarding.EmptyTextContrast | wake_onboarding.js:94-106 | an empty text is passed on here, while the language screen's loop passes nothing and counts a miss |
| WakeLoopOnboarding.Next | wake_onboarding.js:11-142 | the lifecycle as events; `WakeLoopOnboarding.StartRules`, `WakeLoopOnboarding.GrantRules`, `WakeLoopOnboarding.RefusalRules`, `WakeLoopOnboarding.StopReleases` and `WakeLoopOnboarding.ExitReleases` state each event's effect |
| WakeLoopOnboarding.NextPreservesValid | wake_onboarding.js:11-125 | every event keeps at most one loop running, keeps the handle set while a loop runs, and keeps the recorder held only by a running loop |
| WakeLoopOnboarding.StartRules | wake_onboarding.js:13-16 | start does nothing while the flag is set; otherwise it sets the flag and waits for permission with its callback, spawning nothing and leaving the handle alone |
| WakeLoopOnboarding.GrantRules | wake_onboarding.js:16-34 | a grant spawns nothing while the handle is set; with no handle and the flag set it spawns a loop with that call's callback, already inside its first iteration and holding the recorder; with no handle and the flag cleared it leaves the handle set with no loop |
| WakeLoopOnboarding.RefusalRules | wake_onboarding.js:16-27 | a denial clears the flag and a rejected request changes nothing else; neither spawns a loop |
| WakeLoopOnboarding.StopReleases | wake_onboarding.js:127-142 | stop clears the flag and releases the recorder and leaves the running loop alone |
| WakeLoopOnboarding.ReleasedAfterUri | wake_onboarding.js:65-66 | an iteration that reached the URI read holds no recorder afterwards |
| WakeLoopOnboarding.ExitReleases | wake_onboarding.js:115-124 | a loop that sees the cleared flag releases the recorder, clears its handle and ends |
| WakeLoopOnboarding.AtMostOneLoop | wake_onboarding.js:11-125 | whatever happens, at most one loop runs |
| WakeLoopOnboarding.AfterStopAtMostOneCallback | wake_onboarding.js:30-142 | after stop, without a new start, the callback fires at most once more |
| WakeLoopOnboarding.CallbackAfterStop | wake_onboarding.js:94-106 | an iteration under way when the loop is stopped still calls back |
| WakeLoopOnboarding.RestartKeepsOldCallback | wake_onboarding.js:13-24 | start, grant, stop, start, grant before the loop re-tests the flag keeps one loop, which calls the first caller's callback with every successful text that follows |
| WakeLoopOnboarding.RestartAfterExitUsesNewCallback | wake_onboarding.js:23-44 | start, grant, stop; the old loop finishes its iteration and sees the cleared flag; then a start and grant spawn one new loop with the new callback |
| WakeLoopOnboarding.NothingRunsUntilStop | wake_onboarding.js:13 | with the flag set and nothing running or waiting, no event but a stop changes anything |
| WakeLoopOnboarding.RejectedPermissionRequestSticks | wake_onboarding.js:12-27 | a rejected permission request sets the flag and spawns nothing, and every later event short of a stop changes nothing |
| WakeLoopOnboarding.StuckIsForever | wake_onboarding.js:23 | once the handle is set with no loop behind it, nothing that happens afterwards spawns a loop or calls the callback |
| WakeLoopOnboarding.GrantAfterStopSticks | wake_onboarding.js:13-24 | start, stop, then the grant leaves the handle set with no loop, and no later events ever call the callback |
| WakeLoopOnboarding.GuardedKeepsHandleExact | wake_onboarding.js:23 | with the flag re-read after the permission request, every event keeps the handle set exactly while one loop runs |
| WakeLoopOnboarding.GuardedRunKeepsHandleExact | wake_onboarding.js:11-142 | with that guard, no sequence of events ever leaves the handle set without a loop or a loop without the handle |
| WakeLoopOnboarding.GuardedGrantAfterStopRecovers | wake_onboarding.js:13-24 | with that guard, start, stop, grant, start, grant ends with one loop running the second caller's callback |
| WakeLoopOnboarding.LoopCallsBackWithOkTexts | wake_onboarding.js:30-113 | while the flag stays set, the loop passes the text of every successful response, and nothing else, to the callback it was spawned with, in order |

## Left out

- Chars.ToLower: lower-cases ASCII capitals only, and the letter filter keeps only ASCII and Devanagari letters. JavaScript differs on other code points, and the kept text then differs too. U+212A KELVIN SIGN is a letter that `toLowerCase` turns into "k", so "\u212Aey" cleans to "key" in the source and to "ey" here. U+0130 becomes "i" followed by U+0307, so `toLowerCase` does not keep the length there. Letters of other scripts (Latin-1, Greek, Cyrillic, ...) are kept by the source and dropped here.
- Letter and mark classes: only ASCII letters and the Devanagari block are modelled as Unicode letters and marks (`\p{L}`, `\p{M}`). Other scripts' letters count as dropped characters.
- LanguageScreen.CleanText, OnboardingScreen.Normalize: `normalize("NFC")` is abstracted as the identity, which it is not within Devanagari. Lost are the decomposition of U+0958–U+095F (for example U+0958 becomes U+0915 U+093C), the composition of U+0928 U+093C into U+0929 (and of U+0930 and U+0933 with the nukta), and the canonical reordering that puts the nukta U+093C before the virama U+094D.
- The transcript is always a string. Non-string `text` fields in a response and the `raw = ""` / `raw || ""` defaults for `undefined` are out of scope.
- Navigation, animations, the success pop-up and its timer, audio playback, `progressPercent`, the hardware back button and the step texts are UI only and not modelled. The number of steps is a parameter.
- The 300 ms `setTimeout` before each voice step move is applied immediately. The two moves are applied in the order they were scheduled, and other state updates inside that window are not interleaved.
- `isActive` is a parameter of the language screen's handler. Focus and blur set it; they are not modelled as events.
- The recorder, the upload, file deletion, the permission API and the clock are outside the model. Each iteration's result is an input (`Outcome`), and waits are returned as numbers.
- An iteration body is one event: nothing interleaves inside it. Between a loop's flag test and its body, and between a start and its permission answer, any other event may occur. A grant with the flag set and the first flag test and recorder start that follow it are one event, as in the code.
- The asynchronous release in `stopWakeLoopOnboarding`, and the loop's own release on exit, complete at once. The window while the exiting loop awaits the recorder, during which a new start still sees the old handle, is not modelled.
- A callback that throws is not modelled. In `wake.js` it would take the 160 ms exception path after resetting the counter; in the onboarding loop it is caught and has no effect.
- The `typeof callback === "function"` check in the onboarding loop is not modelled. Callbacks are always functions.
- `stt.js`, `stt_server.py`, `HomeScreen.js` and `AppNavigator.js` are not part of this model.

## Findings

| source | as written | input that shows it | evidently intended | confidence | as-written member | corrected member |
|---|---|---|---|---|---|---|
| wake_onboarding.js:13-24 | after the permission `await` the start re-tests `loopPromise` but not the flag; when a stop has cleared the flag meanwhile, `runLoop` skips its `while`, sets `loopPromise = null` and returns before line 24 stores its settled promise in `loopPromise`, so every later start returns at line 23 and the onboarding screen never hears anything again | `startWakeLoopOnboarding(cb)`, then `stopWakeLoopOnboarding()` before the permission answer, then the answer "granted" | `loopPromise` is set exactly while a loop runs, as `if (!LOOP_ACTIVE \|\| loopPromise) return;` would keep it | not executed | WakeLoopOnboarding.GrantAfterStopSticks | WakeLoopOnboarding.GuardedRunKeepsHandleExact |

`WakeLoopOnboarding.Next` is the code as written, and the lemmas about the onboarding loop describe it. `WakeLoopOnboarding.GuardedNext` is the corrected step. It differs only for a grant that arrives with the flag cleared: it drops the grant. `WakeLoopOnboarding.GuardedKeepsHandleExact`, `WakeLoopOnboarding.GuardedRunKeepsHandleExact` and `WakeLoopOnboarding.GuardedGrantAfterStopRecovers` state what the guard restores.

=== FILE: chars.dfy ===
/**
 Character classes used by the transcript normalisers.

 The screens filter with the Unicode property classes `\p{L}` (letter) and
 `\p{M}` (mark), lower-case with `toLowerCase`, and trim or collapse with the
 ECMAScript notion of white space. This module fixes a concrete subset of
 Unicode on which those classes are exact: the ASCII letters and the
 Devanagari block (U+0900..U+097F), whose general categories are spelled out
 range by range below. Every other character is treated as neither a letter
 nor a mark, and `toLowerCase` leaves it unchanged. Outside the subset this
 differs from JavaScript: U+212A KELVIN SIGN, for one, is a letter there and
 lower-cases to "k", while here the filter drops it.
 */
module Chars {

  /** Devanagari code points of general category Lo or Lm. */
  predicate IsDevanagariLetter(c: char) {
    || ('\U{0904}' <= c <= '\U{0939}')
    || c == '\U{093D}'
    || c == '\U{0950}'
    || ('\U{0958}' <= c <= '\U{0961}')
    || ('\U{0971}' <= c <= '\U{097F}')
  }

  /** Devanagari code points of general category Mn or Mc (vowel signs, virama, nukta, ...). */
  predicate IsDevanagariMark(c: char) {
    || ('\U{0900}' <= c <= '\U{0903}')
    || ('\U{093A}' <= c <= '\U{093C}')
    || ('\U{093E}' <= c <= '\U{094F}')
    || ('\U{0951}' <= c <= '\U{0957}')
    || ('\U{0962}' <= c <= '\U{0963}')
  }

  predicate IsUpperAscii(c: char) {
    'A' <= c <= 'Z'
  }

  predicate IsLowerAscii(c: char) {
    'a' <= c <= 'z'
  }

  /** `\p{L}` on the modelled subset. */
  predicate IsLetter(c: char) {
    IsUpperAscii(c) || IsLowerAscii(c) || IsDevanagariLetter(c)
  }

  /** `\p{M}` on the modelled subset. */
  predicate IsMark(c: char) {
    IsDevanagariMark(c)
  }

  /** The characters the regular expression `[\p{L}\p{M} ]` keeps. */
  predicate IsKept(c: char) {
    IsLetter(c) || IsMark(c) || c == ' '
  }

  /** `toLowerCase` on the modelled subset: only ASCII has case. */
  function ToLower(c: char): (r: char)
    ensures IsUpperAscii(c) ==> IsLowerAscii(r) && r as int == c as int + 32
    ensures !IsUpperAscii(c) ==> r == c
  {
    if IsUpperAscii(c) then (c as int + 32) as char else c
  }

  /**
   ECMAScript WhiteSpace and LineTerminator code points: what `String.prototype.trim`
   strips and what the regular expression class `\s` matches.
   */
  predicate IsWhitespace(c: char) {
    || ('\t' <= c <= '\r')
    || c == ' ' || c == '\U{00A0}' || c == '\U{1680}'
    || ('\U{2000}' <= c <= '\U{200A}')
    || c == '\U{2028}' || c == '\U{2029}' || c == '\U{202F}' || c == '\U{205F}'
    || c == '\U{3000}' || c == '\U{FEFF}'
  }

  /** Lower-casing twice is lower-casing once. */
  lemma ToLowerIdempotent(c: char)
    ensures ToLower(ToLower(c)) == ToLower(c)
  {
  }

  /** Lower-casing neither creates nor destroys a kept character, and keeps spaces spaces. */
  lemma ToLowerPreservesClass(c: char)
    ensures IsLetter(ToLower(c)) <==> IsLetter(c)
    ensures IsMark(ToLower(c)) <==> IsMark(c)
    ensures IsKept(ToLower(c)) <==> IsKept(c)
    ensures ToLower(c) == ' ' <==> c == ' '
  {
  }

  /** Among the kept characters, the space is the only white space. */
  lemma KeptWhitespaceIsSpace(c: char)
    requires IsKept(c)
    ensures IsWhitespace(c) <==> c == ' '
  {
  }
}

=== FILE: edit_distance.dfy ===
/**
 Unit-cost edit distance (Levenshtein distance): the fewest single-character
 insertions, deletions and substitutions that turn one string into another.

 `Distance` is the recursive reference definition; `Levenshtein` is the
 dynamic-programming table the language screen fills in, proved to compute it.
 */
module EditDistance {

  function Min3(x: nat, y: nat, z: nat): (m: nat)
    ensures m <= x && m <= y && m <= z
    ensures m == x || m == y || m == z
  {
    if x <= y && x <= z then x else if y <= z then y else z
  }

  /** Substitution cost: free when the characters already agree. */
  function Cost(x: char, y: char): nat {
    if x == y then 0 else 1
  }

  /**
   Edit distance by recursion on the last characters: delete the last of `a`,
   insert the last of `b`, or match/substitute the two last characters.
   */
  function Distance(a: string, b: string): nat
    decreases |a| + |b|
  {
    if |a| == 0 then |b|
    else if |b| == 0 then |a|
    else
      Min3(Distance(a[..|a| - 1], b) + 1,
           Distance(a, b[..|b| - 1]) + 1,
           Distance(a[..|a| - 1], b[..|b| - 1]) + Cost(a[|a| - 1], b[|b| - 1]))
  }

  /** The recurrence restated on prefixes, the form the table uses. */
  lemma DistanceOfPrefixes(a: string, b: string, i: nat, j: nat)
    requires 1 <= i <= |a| && 1 <= j <= |b|
    ensures Distance(a[..i], b[..j]) ==
            Min3(Distance(a[..i - 1], b[..j]) + 1,
                 Distance(a[..i], b[..j - 1]) + 1,
                 Distance(a[..i - 1], b[..j - 1]) + Cost(a[i - 1], b[j - 1]))
  {
    assert a[..i][..i - 1] == a[..i - 1];
    assert b[..j][..j - 1] == b[..j - 1];
  }

  /** `row` holds the distances from the first `i` characters of `a` to each prefix of `b`. */
  predicate IsTableRow(row: seq<nat>, a: string, b: string, i: nat)
    requires i <= |a|
  {
    && |row| <= |b| + 1
    && forall q :: 0 <= q < |row| ==> row[q] == Distance(a[..i], b[..q])
  }

  /**
   Row `i` of the table, computed from row `i - 1`: the first cell is `i`
   (the column initialisation), every later cell the minimum of deleting,
   inserting and substituting.
   */
  method NextRow(a: string, b: string, i: nat, above: seq<nat>) returns (row: seq<nat>)
    requires 1 <= i <= |a|
    requires |above| == |b| + 1 && IsTableRow(above, a, b, i - 1)
    ensures |row| == |b| + 1 && IsTableRow(row, a, b, i)
  {
    assert Distance(a[..i], b[..0]) == i;
    row := [i];
    var j := 1;
    while j <= |b|
      invariant 1 <= j <= |b| + 1
      invariant |row| == j && IsTableRow(row, a, b, i)
    {
      var cost := if a[i - 1] == b[j - 1] then 0 else 1;
      var cell := Min3(above[j] + 1, row[j - 1] + 1, above[j - 1] + cost);
      CellFromNeighbours(a, b, i, j, above[j], row[j - 1], above[j - 1], cell);
      RowExtend(row, a, b, i, cell);
      row := row + [cell];
      j := j + 1;
    }
  }

  /** One cell of the table from its three neighbours. */
  lemma CellFromNeighbours(a: string, b: string, i: nat, j: nat, up: nat, left: nat, diag: nat, cell: nat)
    requires 1 <= i <= |a| && 1 <= j <= |b|
    requires up == Distance(a[..i - 1], b[..j])
    requires left == Distance(a[..i], b[..j - 1])
    requires diag == Distance(a[..i - 1], b[..j - 1])
    requires cell == Min3(up + 1, left + 1, diag + (if a[i - 1] == b[j - 1] then 0 else 1))
    ensures cell == Distance(a[..i], b[..j])
  {
    DistanceOfPrefixes(a, b, i, j);
  }

  lemma RowExtend(row: seq<nat>, a: string, b: string, i: nat, cell: nat)
    requires i <= |a|
    requires IsTableRow(row, a, b, i) && |row| <= |b|
    requires cell == Distance(a[..i], b[..|row|])
    ensures IsTableRow(row + [cell], a, b, i)
  {
  }

  /**
   The table of LanguageScreen.js: `dp[i][j]` is the distance between the
   first `i` characters of `a` and the first `j` characters of `b`; row and
   column 0 hold the index, and the answer is the last cell.
   */
  method Levenshtein(a: string, b: string) returns (d: nat)
    ensures d == Distance(a, b)
  {
    var first: seq<nat> := [];
    var j := 0;
    while j <= |b|
      invariant 0 <= j <= |b| + 1
      invariant |first| == j && IsTableRow(first, a, b, 0)
    {
      first := first + [j];
      j := j + 1;
    }
    var dp: seq<seq<nat>> := [first];
    var i := 1;
    while i <= |a|
      invariant 1 <= i <= |a| + 1
      invariant |dp| == i
      invariant forall p :: 0 <= p < i ==> |dp[p]| == |b| + 1 && IsTableRow(dp[p], a, b, p)
    {
      var row := NextRow(a, b, i, dp[i - 1]);
      dp := dp + [row];
      i := i + 1;
    }
    assert a[..|a|] == a && b[..|b|] == b;
    d := dp[|a|][|b|];
  }

  // ---------------------------------------------------------------------------
  // Properties of the distance.

  /** Turning a string into the empty string deletes every character, and back. */
  lemma DistanceToEmpty(a: string)
    ensures Distance(a, []) == |a|
    ensures Distance([], a) == |a|
  {
  }

  /** A string is at distance 0 from itself. */
  lemma {:induction false} DistanceSelf(a: string)
    ensures Distance(a, a) == 0
  {
    if |a| > 0 {
      DistanceSelf(a[..|a| - 1]);
    }
  }

  /** Appending one character costs exactly one insertion. */
  lemma AppendIsOneEdit(a: string, c: char)
    ensures Distance(a, a + [c]) == 1
  {
    DistanceSelf(a);
    DistanceZeroIff(a, a + [c]);
    assert (a + [c])[..|a|] == a;
  }

  /** A common last character costs nothing: it is matched on the diagonal. */
  lemma CommonLastIsFree(a: string, b: string, c: char)
    ensures Distance(a + [c], b + [c]) <= Distance(a, b)
  {
    assert (a + [c])[..|a|] == a;
    assert (b + [c])[..|b|] == b;
  }

  /** Distance 0 means equal strings, and only then. */
  lemma {:induction false} DistanceZeroIff(a: string, b: string)
    decreases |a| + |b|
    ensures Distance(a, b) == 0 <==> a == b
  {
    if a == b {
      DistanceSelf(a);
    } else if |a| > 0 && |b| > 0 {
      var a', b' := a[..|a| - 1], b[..|b| - 1];
      if a[|a| - 1] == b[|b| - 1] {
        assert a == a' + [a[|a| - 1]] && b == b' + [b[|b| - 1]];
        DistanceZeroIff(a', b');
      }
    }
  }

  /** The distance does not depend on the order of its arguments. */
  lemma {:induction false} DistanceSymmetric(a: string, b: string)
    decreases |a| + |b|
    ensures Distance(a, b) == Distance(b, a)
  {
    if |a| > 0 && |b| > 0 {
      var a', b' := a[..|a| - 1], b[..|b| - 1];
      DistanceSymmetric(a', b);
      DistanceSymmetric(a, b');
      DistanceSymmetric(a', b');
    }
  }

  /** Each edit changes the length by at most one. */
  lemma {:induction false} DistanceAtLeastLengthGap(a: string, b: string)
    decreases |a| + |b|
    ensures |a| - |b| <= Distance(a, b)
    ensures |b| - |a| <= Distance(a, b)
  {
    if |a| > 0 && |b| > 0 {
      var a', b' := a[..|a| - 1], b[..|b| - 1];
      DistanceAtLeastLengthGap(a', b);
      DistanceAtLeastLengthGap(a, b');
      DistanceAtLeastLengthGap(a', b');
    }
  }

  /** Substituting position by position and then inserting or deleting the rest always suffices. */
  lemma {:induction false} DistanceAtMostLonger(a: string, b: string)
    decreases |a| + |b|
    ensures Distance(a, b) <= if |a| >= |b| then |a| else |b|
  {
    if |a| > 0 && |b| > 0 {
      DistanceAtMostLonger(a[..|a| - 1], b[..|b| - 1]);
    }
  }

  /** With no character in common, the distance is the longer length. */
  lemma {:induction false} DistanceOfDisjoint(a: string, b: string)
    requires forall x :: x in a ==> x !in b
    decreases |a| + |b|
    ensures Distance(a, b) == if |a| >= |b| then |a| else |b|
  {
    DistanceAtMostLonger(a, b);
    if |a| > 0 && |b| > 0 {
      var a', b' := a[..|a| - 1], b[..|b| - 1];
      assert a[|a| - 1] in a;
      DistanceOfDisjoint(a', b);
      DistanceOfDisjoint(a, b');
      DistanceOfDisjoint(a', b');
    }
  }
}

=== FILE: language_screen.dfy ===
/**
 The language-selection screen's voice matcher (LanguageScreen.js): the
 transcript normaliser `cleanText`, the fuzzy word matcher built on substring
 containment and Levenshtein distance, and `handleWakeText`, which turns one
 transcript into at most one navigation, trying Hindi, then English, then
 Marathi.
 */
module LanguageScreen {
  import opened Chars
  import opened Text
  import opened EditDistance
  import opened Optional

  // ---------------------------------------------------------------------------
  // cleanText

  /**
   `cleanText`: lower-case, keep letters, marks and spaces, collapse runs of
   white space to one space and trim. The result is lower case and made of
   letters and marks separated by single spaces.
   */
  function CleanText(raw: string): (r: string)
    ensures forall i :: 0 <= i < |r| ==> IsLetterOrMark(r[i]) || r[i] == ' '
    ensures r == [] || (r[0] != ' ' && r[|r| - 1] != ' ')
    ensures forall i :: 0 <= i < |r| - 1 ==> !(r[i] == ' ' && r[i + 1] == ' ')
    ensures AllLowered(r)
  {
    var kept := KeepLettersMarksSpace(Lower(raw));
    KeepKeepsLowered(Lower(raw));
    CollapseKeepsClass(kept);
    var collapsed := CollapseWhitespace(kept);
    TrimKeepsClass(collapsed);
    CollapseSingleSpaces(kept);
    TrimKeepsSingleSpaces(collapsed);
    var r := Trim(collapsed);
    SpacesOfKept(r);
    r
  }

  lemma KeepKeepsLowered(s: string)
    requires AllLowered(s)
    ensures AllLowered(KeepLettersMarksSpace(s))
  {
    var r := KeepLettersMarksSpace(s);
    forall i | 0 <= i < |r| ensures ToLower(r[i]) == r[i] {
      assert r[i] in s;
    }
  }

  lemma CollapseKeepsClass(s: string)
    requires AllKept(s) && AllLowered(s)
    ensures AllKept(CollapseWhitespace(s)) && AllLowered(CollapseWhitespace(s))
  {
    var r := CollapseWhitespace(s);
    CollapseChars(s);
    forall i | 0 <= i < |r| ensures IsKept(r[i]) && ToLower(r[i]) == r[i] {
      if r[i] != ' ' {
        assert r[i] in s;
      }
    }
  }

  lemma TrimKeepsClass(s: string)
    requires AllKept(s) && AllLowered(s)
    ensures AllKept(Trim(s)) && AllLowered(Trim(s))
  {
    var k := LeadCut(s);
    TrimCutsOnlyWhitespace(s);
    SliceKeepsClass(s, k, k + |Trim(s)|);
  }

  /** Any slice of a lower-case string of kept characters is one too. */
  lemma SliceKeepsClass(s: string, lo: nat, hi: nat)
    requires lo <= hi <= |s| && AllKept(s) && AllLowered(s)
    ensures AllKept(s[lo..hi]) && AllLowered(s[lo..hi])
  {
    var r := s[lo..hi];
    forall i | 0 <= i < |r| ensures IsKept(r[i]) {
      assert r[i] == s[lo + i];
    }
    forall i | 0 <= i < |r| ensures ToLower(r[i]) == r[i] {
      assert r[i] == s[lo + i];
    }
  }

  /** In a string of kept characters, white-space facts are facts about the plain space. */
  lemma SpacesOfKept(r: string)
    requires AllKept(r) && NoEdgeWhitespace(r) && NoDoubleWhitespace(r)
    ensures forall i :: 0 <= i < |r| ==> IsLetterOrMark(r[i]) || r[i] == ' '
    ensures r == [] || (r[0] != ' ' && r[|r| - 1] != ' ')
    ensures forall i :: 0 <= i < |r| - 1 ==> !(r[i] == ' ' && r[i + 1] == ' ')
  {
    forall i | 0 <= i < |r| - 1 ensures !(r[i] == ' ' && r[i + 1] == ' ') {
      assert !(IsWhitespace(r[i]) && IsWhitespace(r[i + 1]));
    }
  }

  /** Trimming a string cannot create adjacent white space. */
  lemma TrimKeepsSingleSpaces(s: string)
    requires NoDoubleWhitespace(s)
    ensures NoDoubleWhitespace(Trim(s))
  {
    var k := LeadCut(s);
    TrimCutsOnlyWhitespace(s);
    SliceKeepsSingleSpaces(s, k, k + |Trim(s)|);
  }

  /** Any slice of a string without adjacent white space has none either. */
  lemma SliceKeepsSingleSpaces(s: string, lo: nat, hi: nat)
    requires lo <= hi <= |s| && NoDoubleWhitespace(s)
    ensures NoDoubleWhitespace(s[lo..hi])
  {
    var r := s[lo..hi];
    forall i | 0 <= i < |r| - 1
      ensures !(IsWhitespace(r[i]) && IsWhitespace(r[i + 1]))
    {
      assert r[i] == s[lo + i] && r[i + 1] == s[lo + i + 1];
    }
  }

  /** Cleaning a cleaned transcript changes nothing. */
  lemma CleanTextIdempotent(raw: string)
    ensures CleanText(CleanText(raw)) == CleanText(raw)
  {
    var r := CleanText(raw);
    assert AllKept(r);
    LowerIdentity(r);
    KeepIdentity(r);
    assert WhitespaceIsSpace(r) by {
      forall i | 0 <= i < |r| ensures IsWhitespace(r[i]) ==> r[i] == ' ' {
        KeptWhitespaceIsSpace(r[i]);
      }
    }
    assert NoDoubleWhitespace(r) by {
      forall i | 0 <= i < |r| - 1 ensures !(IsWhitespace(r[i]) && IsWhitespace(r[i + 1])) {
        KeptWhitespaceIsSpace(r[i]);
        KeptWhitespaceIsSpace(r[i + 1]);
      }
    }
    CollapseIdentity(r);
    assert NoEdgeWhitespace(r) by {
      if r != [] {
        KeptWhitespaceIsSpace(r[0]);
        KeptWhitespaceIsSpace(r[|r| - 1]);
      }
    }
    TrimIdentity(r);
  }

  /** A word as the cleaner leaves it: non-empty, lower-case letters and marks only. */
  predicate CleanWord(w: string) {
    w != [] && forall i :: 0 <= i < |w| ==> IsLetterOrMark(w[i]) && ToLower(w[i]) == w[i]
  }

  /**
   Word boundaries survive cleaning: two clean words separated by any number
   of spaces come out separated by exactly one.
   */
  lemma CleanTextKeepsWordBoundary(x: string, gap: string, y: string)
    requires CleanWord(x) && CleanWord(y)
    requires gap != [] && forall i :: 0 <= i < |gap| ==> gap[i] == ' '
    ensures CleanText(x + gap + y) == x + " " + y
  {
    var s := x + gap + y;
    assert AllLowered(s) && AllKept(s);
    LowerIdentity(s);
    KeepIdentity(s);
    assert NoWhitespace(x) by {
      forall i | 0 <= i < |x| ensures !IsWhitespace(x[i]) {
        if IsWhitespace(x[i]) {
          WhitespaceIsNoLetter(x[i]);
        }
      }
    }
    assert NoWhitespace(y) by {
      forall i | 0 <= i < |y| ensures !IsWhitespace(y[i]) {
        if IsWhitespace(y[i]) {
          WhitespaceIsNoLetter(y[i]);
        }
      }
    }
    assert AllWhitespace(gap);
    CollapseWordThenRun(x, gap, y);
    CollapseIdentity(y);
    assert NoEdgeWhitespace(x + " " + y);
    TrimIdentity(x + " " + y);
  }

  /**
   White space other than a plain space is deleted by the letter filter before
   the collapse can turn it into a space, so a tab or line break between two
   words joins them.
   */
  lemma CleanTextJoinsAcrossTab(x: string, c: char, y: string)
    requires CleanWord(x) && CleanWord(y)
    requires IsWhitespace(c) && c != ' '
    ensures CleanText(x + [c] + y) == x + y
  {
    var s := x + [c] + y;
    assert AllLowered(s);
    LowerIdentity(s);
    FilterDropsTab(x, c, y);
    assert NoWhitespace(x + y) by {
      forall i | 0 <= i < |x + y| ensures !IsWhitespace((x + y)[i]) {
        if IsWhitespace((x + y)[i]) {
          WhitespaceIsNoLetter((x + y)[i]);
        }
      }
    }
    CollapseIdentity(x + y);
    TrimIdentity(x + y);
  }

  lemma FilterDropsTab(x: string, c: char, y: string)
    requires CleanWord(x) && CleanWord(y)
    requires IsWhitespace(c) && c != ' '
    ensures KeepLettersMarksSpace(x + [c] + y) == x + y
  {
    assert !IsKept(c) by {
      if IsKept(c) {
        KeptWhitespaceIsSpace(c);
      }
    }
    assert AllKept(x) && AllKept(y);
    KeepIdentity(x);
    KeepIdentity(y);
    assert KeepLettersMarksSpace(x + [c]) == x by {
      KeepAppend(x, [c]);
      KeepSingle(c);
      assert x + [] == x;
    }
    KeepAppend(x + [c], y);
  }

  /** The empty transcript cleans to the empty string. */
  lemma CleanTextOfEmpty()
    ensures CleanText([]) == []
  {
  }

  /**
   Cleaning never adds, drops or reorders a letter or mark of the lower-cased
   transcript: only spaces and filtered characters change.
   */
  lemma CleanTextKeepsLetters(raw: string)
    ensures LettersAndMarks(CleanText(raw)) == LettersAndMarks(Lower(raw))
  {
    var kept := KeepLettersMarksSpace(Lower(raw));
    KeepPreservesLetters(Lower(raw));
    CollapsePreservesLetters(kept);
    TrimPreservesLetters(CollapseWhitespace(kept));
  }

  /** A cleaned transcript is empty exactly when the raw one has no letter or mark. */
  lemma CleanTextEmptyIff(raw: string)
    ensures CleanText(raw) == [] <==> LettersAndMarks(raw) == []
  {
    var r := CleanText(raw);
    CleanTextKeepsLetters(raw);
    LowerPreservesLetterPresence(raw);
    if r != [] {
      assert IsLetterOrMark(r[0]);
      assert LettersAndMarks(r) != [];
    }
  }

  // ---------------------------------------------------------------------------
  // fuzzyMatch

  /**
   `fuzzyMatch(text, word)`: a non-empty text matches when it contains the
   word or is within edit distance 2 of it.
   */
  predicate FuzzyMatch(text: string, word: string) {
    text != [] && (Contains(text, word) || Distance(text, word) <= 2)
  }

  /**
   `fuzzyMatch` as the screen runs it: the empty text is rejected first, then
   containment is tried, and only then is the distance table filled in.
   */
  method MatchWord(text: string, word: string) returns (m: bool)
    ensures m <==> text != [] && ((exists k :: OccursAt(text, word, k)) || Distance(text, word) <= 2)
    ensures m == FuzzyMatch(text, word)
  {
    ContainsIffSlice(text, word);
    if text == [] {
      return false;
    }
    if Contains(text, word) {
      return true;
    }
    var d := Levenshtein(text, word);
    return d <= 2;
  }

  /** The empty text matches nothing, not even the empty word. */
  lemma NoMatchOnEmptyText(word: string)
    ensures !FuzzyMatch([], word)
  {
  }

  /** A non-empty text that contains the word somewhere matches it. */
  lemma ContainedWordMatches(text: string, word: string, k: int)
    requires text != [] && OccursAt(text, word, k)
    ensures FuzzyMatch(text, word)
  {
    ContainsIffSlice(text, word);
  }

  /** Without containment, lengths more than 2 apart never match. */
  lemma LengthGapRejects(text: string, word: string)
    requires !Contains(text, word)
    requires |text| > |word| + 2 || |word| > |text| + 2
    ensures !FuzzyMatch(text, word)
  {
    DistanceAtLeastLengthGap(text, word);
  }

  /** "helo" is one deletion away from "hello", so it matches. */
  lemma HeloMatchesHello(text: string, word: string)
    requires text == "helo" && word == "hello"
    ensures FuzzyMatch(text, word)
  {
    var hel := "hel";
    AppendIsOneEdit(hel, 'l');
    CommonLastIsFree(hel, hel + ['l'], 'o');
    assert text == hel + ['o'] && word == (hel + ['l']) + ['o'];
  }

  /** "xyz" shares no letter with "hello", so it is 5 edits away and does not match. */
  lemma XyzDoesNotMatchHello()
    ensures !FuzzyMatch("xyz", "hello")
  {
    DistanceOfDisjoint("xyz", "hello");
    ContainsNeedsLength("xyz", "hello");
  }

  /** A command word inside a longer sentence matches by containment. */
  lemma WordInSentenceMatches()
    ensures FuzzyMatch("i want to go next please", "next")
  {
    assert OccursAt("i want to go next please", "next", 13);
    ContainedWordMatches("i want to go next please", "next", 13);
  }

  // ---------------------------------------------------------------------------
  // handleWakeText

  datatype Language = Hindi | English | Marathi

  /** The `language` route parameter the screen navigates with. */
  function Name(l: Language): string {
    match l
    case Hindi => "hindi"
    case English => "english"
    case Marathi => "marathi"
  }

  /** The spoken forms tried for each language, Latin and Devanagari spellings. */
  function Candidates(l: Language): seq<string> {
    match l
    case Hindi => ["hindi", "\U{0939}\U{093F}\U{0902}\U{0926}\U{0940}", "\U{0939}\U{093F}\U{0928}\U{094D}\U{0926}\U{0940}"]
    case English => ["english", "\U{0907}\U{0902}\U{0917}\U{094D}\U{0932}\U{093F}\U{0936}", "\U{0907}\U{0902}\U{0917}\U{094D}\U{0932}\U{0940}\U{0936}"]
    case Marathi => ["marathi", "\U{092E}\U{0930}\U{093E}\U{0920}\U{0940}"]
  }

  /** The order in which the languages are tried. */
  const Priority: seq<Language> := [Hindi, English, Marathi]

  /** `words.some(w => fuzzyMatch(text, w))` over the candidates of `l`. */
  predicate Spoken(text: string, l: Language) {
    exists w :: w in Candidates(l) && FuzzyMatch(text, w)
  }

  /** The first language of `order` that was spoken, if any. */
  function FirstSpoken(text: string, order: seq<Language>): (r: Option<Language>)
    ensures r.Some? ==> r.value in order && Spoken(text, r.value)
    ensures r.None? <==> forall l :: l in order ==> !Spoken(text, l)
    ensures r.Some? ==> FirstAmongSpoken(text, order, r.value)
  {
    if order == [] then None
    else if Spoken(text, order[0]) then Some(order[0])
    else
      var r := FirstSpoken(text, order[1..]);
      if r.Some? then FirstPastUnspoken(text, order, r.value); r else r
  }

  /** Whether `l` occurs in `order` with no spoken language before it. */
  predicate FirstAmongSpoken(text: string, order: seq<Language>, l: Language) {
    exists j :: 0 <= j < |order| && order[j] == l && forall k :: 0 <= k < j ==> !Spoken(text, order[k])
  }

  /** Putting an unspoken language in front keeps a language first among the spoken ones. */
  lemma FirstPastUnspoken(text: string, order: seq<Language>, l: Language)
    requires order != [] && !Spoken(text, order[0])
    requires FirstAmongSpoken(text, order[1..], l)
    ensures FirstAmongSpoken(text, order, l)
  {
    var j :| 0 <= j < |order[1..]| && order[1..][j] == l && forall k :: 0 <= k < j ==> !Spoken(text, order[1..][k]);
    assert order[j + 1] == l;
    forall k | 0 <= k < j + 1
      ensures !Spoken(text, order[k])
    {
      if k > 0 {
        assert order[k] == order[1..][k - 1];
      }
    }
  }

  /** The side effects of one call, in the order they happen. */
  datatype Action = StopWakeLoop | NavigateOnboarding(language: Language)

  /**
   `handleWakeText`: ignored unless the screen is focused and the cleaned
   transcript is non-empty; otherwise the first language with a matching
   candidate stops the wake loop and then navigates, and the call returns.
   */
  function HandleWakeText(active: bool, raw: string): (effects: seq<Action>)
    ensures !active || CleanText(raw) == [] ==> effects == []
    ensures effects == [] || (|effects| == 2 && effects[0] == StopWakeLoop && effects[1].NavigateOnboarding?)
  {
    if !active then []
    else
      var text := CleanText(raw);
      if text == [] then []
      else if Spoken(text, Hindi) then [StopWakeLoop, NavigateOnboarding(Hindi)]
      else if Spoken(text, English) then [StopWakeLoop, NavigateOnboarding(English)]
      else if Spoken(text, Marathi) then [StopWakeLoop, NavigateOnboarding(Marathi)]
      else []
  }

  /**
   The language navigated to is exactly the first one, in priority order, that
   the cleaned transcript speaks.
   */
  lemma DispatchFollowsPriority(active: bool, raw: string, l: Language)
    ensures HandleWakeText(active, raw) == [StopWakeLoop, NavigateOnboarding(l)] <==>
      active && CleanText(raw) != [] && FirstSpoken(CleanText(raw), Priority) == Some(l)
  {
    var text := CleanText(raw);
    var h, e, m := Spoken(text, Hindi), Spoken(text, English), Spoken(text, Marathi);
    FirstSpokenInPriority(text);
    assert HandleWakeText(active, raw) == Route(active && text != [], h, e, m);
    assert FirstSpoken(text, Priority) == (if h then Some(Hindi) else if e then Some(English) else if m then Some(Marathi) else None);
    RouteIsFirst(active && text != [], h, e, m, l);
  }

  /** Nothing happens exactly when the screen is inactive, the text is empty or no language is spoken. */
  lemma NothingUnlessSpoken(active: bool, raw: string)
    ensures HandleWakeText(active, raw) == [] <==>
      !active || CleanText(raw) == [] || forall l :: !Spoken(CleanText(raw), l)
  {
    var text := CleanText(raw);
    var h, e, m := Spoken(text, Hindi), Spoken(text, English), Spoken(text, Marathi);
    assert HandleWakeText(active, raw) == Route(active && text != [], h, e, m);
    SpokenNone(text);
  }

  /** No language is spoken exactly when none of the three is. */
  lemma SpokenNone(text: string)
    ensures (forall l :: !Spoken(text, l)) <==>
      !Spoken(text, Hindi) && !Spoken(text, English) && !Spoken(text, Marathi)
  {
    forall l | !Spoken(text, Hindi) && !Spoken(text, English) && !Spoken(text, Marathi)
      ensures !Spoken(text, l)
    {
      match l
      case Hindi =>
      case English =>
      case Marathi =>
    }
  }

  /** The `if` chain of `handleWakeText`, over what was heard of each language. */
  function Route(go: bool, hindi: bool, english: bool, marathi: bool): seq<Action> {
    if !go then []
    else if hindi then [StopWakeLoop, NavigateOnboarding(Hindi)]
    else if english then [StopWakeLoop, NavigateOnboarding(English)]
    else if marathi then [StopWakeLoop, NavigateOnboarding(Marathi)]
    else []
  }

  lemma RouteIsFirst(go: bool, hindi: bool, english: bool, marathi: bool, l: Language)
    ensures Route(go, hindi, english, marathi) == [StopWakeLoop, NavigateOnboarding(l)] <==>
      go && (if hindi then Some(Hindi) else if english then Some(English) else if marathi then Some(Marathi) else None) == Some(l)
  {
  }

  /**
   The concrete instance of `FirstSpoken` for the screen's priority order,
   written out as the screen's if-chain; that the first spoken language wins
   holds for every order and is part of `FirstSpoken`'s contract.
   */
  lemma FirstSpokenInPriority(text: string)
    ensures FirstSpoken(text, Priority) ==
      if Spoken(text, Hindi) then Some(Hindi)
      else if Spoken(text, English) then Some(English)
      else if Spoken(text, Marathi) then Some(Marathi)
      else None
  {
    assert Priority[1..] == [English, Marathi];
    assert Priority[1..][1..] == [Marathi];
    assert Priority[1..][1..][1..] == [];
  }

  /** A Hindi match wins even when English and Marathi candidates also match. */
  lemma HindiWins(raw: string)
    requires CleanText(raw) != [] && Spoken(CleanText(raw), Hindi)
    ensures HandleWakeText(true, raw) == [StopWakeLoop, NavigateOnboarding(Hindi)]
  {
  }

  /** An English match wins over a Marathi one when no Hindi candidate matches. */
  lemma EnglishBeforeMarathi(raw: string)
    requires CleanText(raw) != [] && !Spoken(CleanText(raw), Hindi) && Spoken(CleanText(raw), English)
    ensures HandleWakeText(true, raw) == [StopWakeLoop, NavigateOnboarding(English)]
  {
  }
}

=== FILE: loop_outcome.dfy ===
/**
 What the I/O of one wake-loop iteration produced, as seen by the loop body.
 Recording, the upload and the JSON parse are outside the model; each
 iteration is driven by one of these values instead.
 */
module LoopOutcome {

  datatype Permission =
    | Granted        // the microphone permission request resolved with `granted`
    | Denied         // it resolved without `granted`
    | RequestFailed  // the request itself rejected

  datatype Outcome =
    | NoUri            // the stopped recording has no URI
    | FetchFail        // the upload threw (network failure)
    | NotOk            // the upload answered with a non-success status
    | Ok(text: string) // success status, JSON object body whose `text` is this string ("" when absent)
    | FalsyJson        // success status, JSON body that is `null` (or another falsy value)
    | BadJson          // success status, body that is not JSON: `response.json()` rejects
    | Exception        // a recorder call threw before the URI was read
}

=== FILE: onboarding_screen.dfy ===
/**
 The onboarding screen's voice navigation (OnboardingScreen.js): its own
 transcript normaliser (which, unlike the language screen's, does not collapse
 inner white space), containment-only matching against the "next" and
 "previous" keyword lists, the clamped step index moved by voice and by the
 buttons, and the language-code mapping applied on mount.
 */
module OnboardingScreen {
  import opened Chars
  import opened Text
  import LanguageScreen

  // ---------------------------------------------------------------------------
  // Normalisation

  /**
   The normaliser inside `handleWakeText`: lower-case, keep letters, marks and
   spaces, trim. Inner runs of spaces survive.
   */
  function Normalize(raw: string): (r: string)
    ensures forall i :: 0 <= i < |r| ==> IsLetterOrMark(r[i]) || r[i] == ' '
    ensures r == [] || (r[0] != ' ' && r[|r| - 1] != ' ')
    ensures AllLowered(r)
  {
    var kept := KeepLettersMarksSpace(Lower(raw));
    LanguageScreen.KeepKeepsLowered(Lower(raw));
    LanguageScreen.TrimKeepsClass(kept);
    Trim(kept)
  }

  /** Normalising a normalised transcript changes nothing. */
  lemma NormalizeIdempotent(raw: string)
    ensures Normalize(Normalize(raw)) == Normalize(raw)
  {
    var r := Normalize(raw);
    LowerIdentity(r);
    KeepIdentity(r);
    TrimIdentity(r);
  }

  /** Normalising never adds, drops or reorders a letter or mark of the lower-cased transcript. */
  lemma NormalizeKeepsLetters(raw: string)
    ensures LettersAndMarks(Normalize(raw)) == LettersAndMarks(Lower(raw))
  {
    KeepPreservesLetters(Lower(raw));
    TrimPreservesLetters(KeepLettersMarksSpace(Lower(raw)));
  }

  /** A lower-case string of kept characters without edge spaces is its own normal form. */
  lemma NormalFormFixed(s: string)
    requires AllLowered(s) && AllKept(s) && NoEdgeWhitespace(s)
    ensures Normalize(s) == s
  {
    LowerIdentity(s);
    KeepIdentity(s);
    TrimIdentity(s);
  }

  /**
   Where the two screens' normalisers part: a double space survives here,
   while the language screen's `CleanText` never leaves one.
   */
  lemma DoubleSpaceSurvives(s: string)
    requires s == "a  b"
    ensures Normalize(s) == s && s[1] == s[2] == ' '
  {
    NormalFormFixed(s);
  }

  // ---------------------------------------------------------------------------
  // Keyword matching

  const NextKeywords: seq<string> := [
    "haan", "ha", "yes", "ok", "continue", "next", "aage",
    "\U{0939}\U{093E}\U{0901}",          // haan
    "\U{0939}\U{093E}",                  // ha
    "\U{0906}\U{0917}\U{0947}",          // aage
    "\U{0905}\U{0917}\U{0932}\U{093E}",  // agla
    "\U{091A}\U{0932}\U{094B}",          // chalo
    "\U{0920}\U{0940}\U{0915}"           // theek
  ]

  const PrevKeywords: seq<string> := [
    "peeche", "piche", "back", "previous",
    "\U{092A}\U{0940}\U{091B}\U{0947}",          // peeche
    "\U{092A}\U{093F}\U{091B}\U{0932}\U{093E}",  // pichla
    "\U{0935}\U{093E}\U{092A}\U{0938}"           // vapas
  ]

  /** `keywords.some(w => text.includes(w))`. */
  predicate SaysAny(text: string, keywords: seq<string>) {
    exists w :: w in keywords && Contains(text, w)
  }

  /** Some keyword of the list occurs at some position of the text. */
  ghost predicate Occurs(text: string, keywords: seq<string>) {
    exists w, k :: w in keywords && OccursAt(text, w, k)
  }

  /** Matching is containment and nothing else: some keyword occurs at some position. */
  lemma SaysAnyIffOccurs(text: string, keywords: seq<string>)
    ensures SaysAny(text, keywords) <==> Occurs(text, keywords)
  {
    forall w | w in keywords {
      ContainsIffSlice(text, w);
    }
  }

  /** "nxt" is one edit from "next", yet no keyword occurs in it, so nothing fires. */
  lemma NearMissDoesNotFire()
    ensures !SaysAny("nxt", NextKeywords) && !SaysAny("nxt", PrevKeywords)
  {
    forall w | w in NextKeywords + PrevKeywords ensures !Contains("nxt", w) {
      if Contains("nxt", w) {
        ContainsFirstChar("nxt", w);
      }
    }
  }

  /** Containment also fires inside longer words: "what" contains "ha". */
  lemma KeywordInsideWordFires()
    ensures SaysAny("what", NextKeywords)
  {
    assert Contains("what", "ha") by {
      assert "ha" <= "what"[1..];
    }
  }

  // ---------------------------------------------------------------------------
  // The step index

  datatype Command = Next | Prev

  /** `Math.min(s + 1, steps.length - 1)` and `Math.max(s - 1, 0)`. */
  function Move(step: int, count: int, c: Command): int {
    match c
    case Next => if step + 1 <= count - 1 then step + 1 else count - 1
    case Prev => if step - 1 >= 0 then step - 1 else 0
  }

  /** Every move keeps a valid step index valid. */
  lemma MoveStaysInRange(step: int, count: int, c: Command)
    requires 0 <= step < count
    ensures 0 <= Move(step, count, c) < count
    ensures c == Next ==> Move(step, count, c) == step + 1 || step == count - 1 == Move(step, count, c)
    ensures c == Prev ==> Move(step, count, c) == step - 1 || step == 0 == Move(step, count, c)
  {
  }

  /** What the screen holds: the step shown, the last recognised text and whether it is listening. */
  datatype Screen = Screen(step: int, recognized: string, listening: bool)

  /** Side effects, in order: the success beep and pop-up, stopping the wake loop, stopping playback. */
  datatype Effect = ShowSuccess | StopWakeLoop | StopAudio

  datatype Reaction = Reaction(screen: Screen, effects: seq<Effect>)

  /**
   `handleWakeText`: a transcript that normalises to nothing is ignored;
   otherwise it is shown, and the next check and then the previous check each
   independently beep, stop the loop, stop listening and move the step. The two
   moves are deferred by the same delay, so they apply in that order.
   */
  function HandleWakeText(sc: Screen, count: int, raw: string): Reaction {
    var text := Normalize(raw);
    if text == [] then Reaction(sc, [])
    else
      var next := SaysAny(text, NextKeywords);
      var prev := SaysAny(text, PrevKeywords);
      var afterNext := if next then Move(sc.step, count, Next) else sc.step;
      var afterPrev := if prev then Move(afterNext, count, Prev) else afterNext;
      Reaction(
        Screen(afterPrev, text, sc.listening && !next && !prev),
        (if next then [ShowSuccess, StopWakeLoop] else []) + (if prev then [ShowSuccess, StopWakeLoop] else []))
  }

  /** An empty normalised transcript changes nothing and does nothing. */
  lemma EmptyTranscriptIgnored(sc: Screen, count: int, raw: string)
    requires Normalize(raw) == []
    ensures HandleWakeText(sc, count, raw) == Reaction(sc, [])
  {
  }

  /**
   How the step moves for a non-empty transcript: by one clamped step forward
   when only a next keyword occurs, back when only a previous keyword occurs,
   forward then back when both occur, and not at all otherwise.
   */
  lemma VoiceStepUpdate(sc: Screen, count: int, raw: string)
    requires Normalize(raw) != []
    ensures HandleWakeText(sc, count, raw).screen.recognized == Normalize(raw)
    ensures Occurs(Normalize(raw), NextKeywords) && !Occurs(Normalize(raw), PrevKeywords) ==>
      HandleWakeText(sc, count, raw).screen.step == Move(sc.step, count, Next)
    ensures !Occurs(Normalize(raw), NextKeywords) && Occurs(Normalize(raw), PrevKeywords) ==>
      HandleWakeText(sc, count, raw).screen.step == Move(sc.step, count, Prev)
    ensures Occurs(Normalize(raw), NextKeywords) && Occurs(Normalize(raw), PrevKeywords) ==>
      HandleWakeText(sc, count, raw).screen.step == Move(Move(sc.step, count, Next), count, Prev)
    ensures !Occurs(Normalize(raw), NextKeywords) && !Occurs(Normalize(raw), PrevKeywords) ==>
      HandleWakeText(sc, count, raw) == Reaction(sc.(recognized := Normalize(raw)), [])
    ensures Occurs(Normalize(raw), NextKeywords) || Occurs(Normalize(raw), PrevKeywords) ==>
      !HandleWakeText(sc, count, raw).screen.listening && StopWakeLoop in HandleWakeText(sc, count, raw).effects
  {
    SaysAnyIffOccurs(Normalize(raw), NextKeywords);
    SaysAnyIffOccurs(Normalize(raw), PrevKeywords);
  }

  /** A transcript with both kinds of keyword on the last step ends one step back. */
  lemma BothKeywordsOnLastStep(text: string, recognized: string, listening: bool)
    requires text == "haan peeche"
    ensures HandleWakeText(Screen(2, recognized, listening), 3, text).screen.step == 1
  {
    HaanPeecheIsNormal(text);
    HaanPeecheSaysBoth(text);
    assert Move(2, 3, Next) == 2 && Move(2, 3, Prev) == 1;
  }

  lemma HaanPeecheIsNormal(text: string)
    requires text == "haan peeche"
    ensures Normalize(text) == text != []
  {
    NormalFormFixed(text);
  }

  lemma HaanPeecheSaysBoth(text: string)
    requires text == "haan peeche"
    ensures SaysAny(text, NextKeywords) && SaysAny(text, PrevKeywords)
  {
    assert SaysAny(text, NextKeywords) by {
      assert "haan" <= text;
      assert "haan" in NextKeywords && Contains(text, "haan");
    }
    assert SaysAny(text, PrevKeywords) by {
      assert OccursAt(text, "peeche", 5);
      ContainsIffSlice(text, "peeche");
      assert "peeche" in PrevKeywords;
    }
  }

  /** `nextStep`: stop everything, clear the recognised text, move forward. */
  function NextButton(sc: Screen, count: int): Reaction {
    Reaction(Screen(Move(sc.step, count, Next), [], false), [StopAudio, StopWakeLoop])
  }

  /** `prevStep`: stop everything, clear the recognised text, move back. */
  function PrevButton(sc: Screen, count: int): Reaction {
    Reaction(Screen(Move(sc.step, count, Prev), [], false), [StopAudio, StopWakeLoop])
  }

  /** Inputs that drive the screen: a transcript from the wake loop, or a button press. */
  datatype Input = Voice(raw: string) | NextPressed | PrevPressed

  function React(sc: Screen, count: int, input: Input): Reaction {
    match input
    case Voice(raw) => HandleWakeText(sc, count, raw)
    case NextPressed => NextButton(sc, count)
    case PrevPressed => PrevButton(sc, count)
  }

  /** The screen after a whole sequence of inputs. */
  function Run(sc: Screen, count: int, inputs: seq<Input>): Screen
    decreases |inputs|
  {
    if inputs == [] then sc
    else Run(React(sc, count, inputs[0]).screen, count, inputs[1..])
  }

  /** Whatever is said or pressed, the step index stays within the step list. */
  lemma {:induction false} StepStaysInRange(sc: Screen, count: int, inputs: seq<Input>)
    requires 0 <= sc.step < count
    decreases |inputs|
    ensures 0 <= Run(sc, count, inputs).step < count
  {
    if inputs != [] {
      var next := React(sc, count, inputs[0]).screen;
      assert 0 <= next.step < count by {
        match inputs[0]
        case Voice(raw) =>
          var text := Normalize(raw);
          if text != [] {
            MoveStaysInRange(sc.step, count, Next);
            MoveStaysInRange(Move(sc.step, count, Next), count, Prev);
            MoveStaysInRange(sc.step, count, Prev);
          }
        case NextPressed =>
          MoveStaysInRange(sc.step, count, Next);
        case PrevPressed =>
          MoveStaysInRange(sc.step, count, Prev);
      }
      StepStaysInRange(next, count, inputs[1..]);
    }
  }

  // ---------------------------------------------------------------------------
  // Language code

  /** The i18n language chosen on mount from the `language` route parameter. */
  function LanguageCode(language: string): string {
    if language == "hindi" then "hi" else if language == "marathi" then "mr" else "en"
  }

  /**
   The three languages the selection screen can navigate with get three
   different codes, and any other parameter falls back to English's.
   */
  lemma LanguageCodes(l1: LanguageScreen.Language, l2: LanguageScreen.Language, other: string)
    requires other != "hindi" && other != "marathi"
    ensures LanguageCode(LanguageScreen.Name(l1)) == LanguageCode(LanguageScreen.Name(l2)) ==> l1 == l2
    ensures LanguageCode(other) == LanguageCode(LanguageScreen.Name(LanguageScreen.English)) == "en"
    ensures LanguageCode(LanguageScreen.Name(LanguageScreen.Hindi)) == "hi"
    ensures LanguageCode(LanguageScreen.Name(LanguageScreen.Marathi)) == "mr"
  {
  }
}

=== FILE: optional.dfy ===
/** The absent-or-present value used where the screens and loops hold a nullable value. */
module Optional {

  datatype Option<+T> = None | Some(value: T)
}

=== FILE: text.dfy ===
/**
 The string operations the two normalisers are built from, each modelling one
 JavaScript call: `toLowerCase`, `replace(/[^\p{L}\p{M} ]/gu, "")`,
 `replace(/\s+/g, " ")`, `trim` and `includes`. `normalize("NFC")` is
 abstracted as the identity and does not appear; within Devanagari that
 loses the nukta compositions and decompositions and the reordering of
 combining marks that NFC performs.
 */
module Text {
  import opened Chars

  /** Every character is one the letter/mark/space filter keeps. */
  predicate AllKept(s: string) {
    forall i :: 0 <= i < |s| ==> IsKept(s[i])
  }

  /** Every character is already lower case. */
  predicate AllLowered(s: string) {
    forall i :: 0 <= i < |s| ==> ToLower(s[i]) == s[i]
  }

  /** Neither the first nor the last character is white space. */
  predicate NoEdgeWhitespace(s: string) {
    s == [] || (!IsWhitespace(s[0]) && !IsWhitespace(s[|s| - 1]))
  }

  /** No two adjacent characters are both white space. */
  predicate NoDoubleWhitespace(s: string) {
    forall i :: 0 <= i < |s| - 1 ==> !(IsWhitespace(s[i]) && IsWhitespace(s[i + 1]))
  }

  predicate IsLetterOrMark(c: char) {
    IsLetter(c) || IsMark(c)
  }

  /** `s.toLowerCase()`. */
  function Lower(s: string): (r: string)
    ensures |r| == |s|
    ensures forall i :: 0 <= i < |s| ==> r[i] == ToLower(s[i])
    ensures AllLowered(r)
  {
    if s == [] then []
    else
      ToLowerIdempotent(s[0]);
      [ToLower(s[0])] + Lower(s[1..])
  }

  /** `s.replace(/[^\p{L}\p{M} ]/gu, "")`: the subsequence of kept characters. */
  function KeepLettersMarksSpace(s: string): (r: string)
    ensures |r| <= |s|
    ensures AllKept(r)
    ensures forall c :: c in r <==> c in s && IsKept(c)
  {
    if s == [] then []
    else if IsKept(s[0]) then [s[0]] + KeepLettersMarksSpace(s[1..])
    else KeepLettersMarksSpace(s[1..])
  }

  /**
   The letters and marks of `s`, in order: what survives of a transcript once
   every space and every dropped character is ignored.
   */
  function LettersAndMarks(s: string): (r: string)
    ensures forall i :: 0 <= i < |r| ==> IsLetterOrMark(r[i])
  {
    if s == [] then []
    else if IsLetterOrMark(s[0]) then [s[0]] + LettersAndMarks(s[1..])
    else LettersAndMarks(s[1..])
  }

  /** The leading run of white space removed: `trimStart`. */
  function TrimStart(s: string): (r: string)
    ensures |r| <= |s|
    ensures r == [] || !IsWhitespace(r[0])
  {
    if s != [] && IsWhitespace(s[0]) then TrimStart(s[1..]) else s
  }

  /** `trimStart` keeps a suffix and cuts off only white space. */
  lemma {:induction false} TrimStartCuts(s: string)
    ensures TrimStart(s) == s[|s| - |TrimStart(s)|..]
    ensures forall i :: 0 <= i < |s| - |TrimStart(s)| ==> IsWhitespace(s[i])
  {
    if s != [] && IsWhitespace(s[0]) {
      TrimStartCuts(s[1..]);
      forall i | 1 <= i < |s| - |TrimStart(s)| ensures IsWhitespace(s[i]) {
        assert s[i] == s[1..][i - 1];
      }
    }
  }

  /** The trailing run of white space removed: `trimEnd`. */
  function TrimEnd(s: string): (r: string)
    ensures |r| <= |s|
    ensures r == [] || !IsWhitespace(r[|r| - 1])
  {
    if s != [] && IsWhitespace(s[|s| - 1]) then TrimEnd(s[..|s| - 1]) else s
  }

  /** `trimEnd` keeps a prefix and cuts off only white space. */
  lemma {:induction false} TrimEndCuts(s: string)
    ensures TrimEnd(s) == s[..|TrimEnd(s)|]
    ensures forall i :: |TrimEnd(s)| <= i < |s| ==> IsWhitespace(s[i])
  {
    if s != [] && IsWhitespace(s[|s| - 1]) {
      var init := s[..|s| - 1];
      TrimEndCuts(init);
      assert TrimEnd(s) == TrimEnd(init);
      assert init[..|TrimEnd(s)|] == s[..|TrimEnd(s)|];
      forall i | |TrimEnd(s)| <= i < |s| - 1 ensures IsWhitespace(s[i]) {
        assert s[i] == init[i];
      }
    }
  }

  /** `s.trim()`: white space cut off at both ends. */
  function Trim(s: string): (r: string)
    ensures NoEdgeWhitespace(r)
  {
    TrimEndCuts(TrimStart(s));
    TrimEnd(TrimStart(s))
  }

  /** How many characters `trimStart` cuts off. */
  function LeadCut(s: string): nat {
    |s| - |TrimStart(s)|
  }

  /**
   What `trim` leaves is one contiguous piece of its input, and everything cut
   off on either side is white space.
   */
  lemma TrimCutsOnlyWhitespace(s: string)
    ensures LeadCut(s) + |Trim(s)| <= |s|
    ensures Trim(s) == s[LeadCut(s)..LeadCut(s) + |Trim(s)|]
    ensures forall i :: 0 <= i < LeadCut(s) ==> IsWhitespace(s[i])
    ensures forall i :: LeadCut(s) + |Trim(s)| <= i < |s| ==> IsWhitespace(s[i])
  {
    var t := TrimStart(s);
    var r := TrimEnd(t);
    var k := |s| - |t|;
    TrimStartCuts(s);
    TrimEndCuts(t);
    assert Trim(s) == r;
    assert t == s[k..] && r == t[..|r|];
    SliceOfSuffix(s, k, |r|);
    forall i | k + |r| <= i < |s| ensures IsWhitespace(s[i]) {
      assert s[i] == t[i - k];
    }
  }

  lemma SliceOfSuffix(s: string, k: nat, n: nat)
    requires k + n <= |s|
    ensures s[k..][..n] == s[k..k + n]
  {
  }

  /** `trim` gives the empty string exactly when every character is white space. */
  lemma TrimEmptyIff(s: string)
    ensures Trim(s) == [] <==> forall i :: 0 <= i < |s| ==> IsWhitespace(s[i])
  {
    var k := LeadCut(s);
    TrimCutsOnlyWhitespace(s);
    if Trim(s) != [] {
      assert Trim(s)[0] == s[k];
    }
  }

  /** `s.replace(/\s+/g, " ")`: every maximal run of white space becomes one space. */
  function CollapseWhitespace(s: string): (r: string)
    decreases |s|
    ensures r == [] <==> s == []
  {
    if s == [] then []
    else if IsWhitespace(s[0]) then
      var rest := TrimStart(s);
      TrimStartCuts(s);
      assert |rest| < |s|;
      [' '] + CollapseWhitespace(rest)
    else [s[0]] + CollapseWhitespace(s[1..])
  }

  /** A collapsed string starts with white space exactly when its input does. */
  lemma CollapseStartsAlike(s: string)
    ensures CollapseWhitespace(s) != [] ==> (IsWhitespace(CollapseWhitespace(s)[0]) <==> IsWhitespace(s[0]))
  {
  }

  /** Every character of a collapsed string is a single space or a non-space character of the input. */
  lemma {:induction false} CollapseChars(s: string)
    decreases |s|
    ensures forall i :: 0 <= i < |CollapseWhitespace(s)| ==>
              CollapseWhitespace(s)[i] == ' ' || (CollapseWhitespace(s)[i] in s && !IsWhitespace(CollapseWhitespace(s)[i]))
  {
    if s != [] {
      var rest := if IsWhitespace(s[0]) then TrimStart(s) else s[1..];
      TrimStartCuts(s);
      CollapseChars(rest);
      var tail := CollapseWhitespace(rest);
      var r := CollapseWhitespace(s);
      assert r[1..] == tail;
      forall i | 0 <= i < |r|
        ensures r[i] == ' ' || (r[i] in s && !IsWhitespace(r[i]))
      {
        if i > 0 {
          assert r[i] == tail[i - 1];
          if tail[i - 1] != ' ' {
            assert tail[i - 1] in rest;
          }
        }
      }
    }
  }

  /** A collapsed string has no two adjacent white-space characters. */
  lemma {:induction false} CollapseSingleSpaces(s: string)
    decreases |s|
    ensures NoDoubleWhitespace(CollapseWhitespace(s))
  {
    if s != [] {
      var rest := if IsWhitespace(s[0]) then TrimStart(s) else s[1..];
      TrimStartCuts(s);
      CollapseSingleSpaces(rest);
      CollapseStartsAlike(rest);
      var tail := CollapseWhitespace(rest);
      var r := CollapseWhitespace(s);
      assert r[1..] == tail;
      forall i | 0 <= i < |r| - 1 ensures !(IsWhitespace(r[i]) && IsWhitespace(r[i + 1])) {
        if i > 0 {
          assert r[i] == tail[i - 1] && r[i + 1] == tail[i];
        }
      }
    }
  }

  /** `word` occurs in `text` at position `k`. */
  predicate OccursAt(text: string, word: string, k: int) {
    0 <= k <= |text| - |word| && text[k..k + |word|] == word
  }

  /** `text.includes(word)`: `word` occurs in `text` starting at some position. */
  function Contains(text: string, word: string): bool
  {
    if word <= text then true
    else if text == [] then false
    else Contains(text[1..], word)
  }

  /** `Contains` is exactly "some slice of `text` equals `word`". */
  lemma {:induction false} ContainsIffSlice(text: string, word: string)
    ensures Contains(text, word) <==> exists k :: OccursAt(text, word, k)
  {
    if word <= text {
      assert OccursAt(text, word, 0);
    } else if text == [] {
    } else {
      ContainsIffSlice(text[1..], word);
      if Contains(text[1..], word) {
        var k :| OccursAt(text[1..], word, k);
        OccursShift(text, word, k);
      } else {
        forall k | OccursAt(text, word, k)
          ensures false
        {
          if k > 0 {
            OccursShift(text, word, k - 1);
          }
        }
      }
    }
  }

  /** An occurrence in the tail is an occurrence one position further on in the whole. */
  lemma OccursShift(text: string, word: string, k: int)
    requires text != [] && 0 <= k
    ensures OccursAt(text[1..], word, k) <==> OccursAt(text, word, k + 1)
  {
    var w := |word|;
    if 0 <= k <= |text| - 1 - w {
      var x, y := text[1..][k..k + w], text[k + 1..k + 1 + w];
      forall j | 0 <= j < w ensures x[j] == y[j] {
        assert x[j] == text[1..][k + j] == text[k + 1 + j];
      }
      assert x == y;
    }
  }

  /** A contained non-empty word has its first character in the text. */
  lemma ContainsFirstChar(text: string, word: string)
    requires word != [] && Contains(text, word)
    ensures word[0] in text
  {
    ContainsIffSlice(text, word);
    var k :| OccursAt(text, word, k);
    assert text[k] == text[k..k + |word|][0];
  }

  /** A word longer than the text is never contained in it. */
  lemma {:induction false} ContainsNeedsLength(text: string, word: string)
    requires |word| > |text|
    ensures !Contains(text, word)
  {
    if text != [] {
      ContainsNeedsLength(text[1..], word);
    }
  }

  // ---------------------------------------------------------------------------
  // Identities: each step leaves an already-normal string unchanged.

  lemma {:induction false} LowerIdentity(s: string)
    requires AllLowered(s)
    ensures Lower(s) == s
  {
    if s != [] {
      LowerIdentity(s[1..]);
    }
  }

  lemma {:induction false} KeepIdentity(s: string)
    requires AllKept(s)
    ensures KeepLettersMarksSpace(s) == s
  {
    if s != [] {
      KeepIdentity(s[1..]);
    }
  }

  lemma TrimIdentity(s: string)
    requires NoEdgeWhitespace(s)
    ensures Trim(s) == s
  {
  }

  /** The only white space character in `s` is the plain space. */
  predicate WhitespaceIsSpace(s: string) {
    forall i :: 0 <= i < |s| ==> IsWhitespace(s[i]) ==> s[i] == ' '
  }

  /** A string whose only white space is single spaces is left alone by the collapse. */
  lemma {:induction false} CollapseIdentity(s: string)
    requires WhitespaceIsSpace(s)
    requires NoDoubleWhitespace(s)
    ensures CollapseWhitespace(s) == s
  {
    if s != [] {
      var tail := s[1..];
      SingleSpacesTail(s);
      CollapseIdentity(tail);
      if IsWhitespace(s[0]) {
        assert s[0] == ' ';
        assert tail == [] || !IsWhitespace(tail[0]);
        assert TrimStart(tail) == tail;
        assert TrimStart(s) == tail;
        assert CollapseWhitespace(s) == [' '] + CollapseWhitespace(tail);
        assert s == [' '] + tail;
      } else {
        assert CollapseWhitespace(s) == [s[0]] + CollapseWhitespace(tail);
        assert s == [s[0]] + tail;
      }
    }
  }

  /** Dropping the first character keeps single plain spaces single and plain. */
  lemma SingleSpacesTail(s: string)
    requires s != [] && WhitespaceIsSpace(s) && NoDoubleWhitespace(s)
    ensures WhitespaceIsSpace(s[1..]) && NoDoubleWhitespace(s[1..])
  {
    var tail := s[1..];
    forall i | 0 <= i < |tail| ensures IsWhitespace(tail[i]) ==> tail[i] == ' ' {
      assert tail[i] == s[i + 1];
    }
    forall i | 0 <= i < |tail| - 1 ensures !(IsWhitespace(tail[i]) && IsWhitespace(tail[i + 1])) {
      assert tail[i] == s[i + 1] && tail[i + 1] == s[i + 2];
    }
  }

  // ---------------------------------------------------------------------------
  // Where the spaces go

  /** The filter works character by character: filtering a concatenation filters each part. */
  lemma {:induction false} KeepAppend(a: string, b: string)
    ensures KeepLettersMarksSpace(a + b) == KeepLettersMarksSpace(a) + KeepLettersMarksSpace(b)
  {
    if a == [] {
      assert a + b == b;
    } else {
      assert (a + b)[0] == a[0];
      assert (a + b)[1..] == a[1..] + b;
      KeepAppend(a[1..], b);
    }
  }

  /** One character is kept, itself, exactly when it is a letter, a mark or a space. */
  lemma KeepSingle(c: char)
    ensures KeepLettersMarksSpace([c]) == if IsKept(c) then [c] else []
  {
    assert [c][1..] == [];
  }

  predicate AllWhitespace(s: string) {
    forall i :: 0 <= i < |s| ==> IsWhitespace(s[i])
  }

  /**
   No run of white space straddles the join of `a` and `b`: one side is empty,
   or `a` ends or `b` starts with a character that is not white space.
   */
  predicate JoinsCleanly(a: string, b: string) {
    a == [] || b == [] || !IsWhitespace(a[|a| - 1]) || !IsWhitespace(b[0])
  }

  /** `trimStart` of a concatenation: past `a` when `a` is all white space, otherwise within `a`. */
  lemma {:induction false} TrimStartAppend(a: string, b: string)
    ensures AllWhitespace(a) ==> TrimStart(a + b) == TrimStart(b)
    ensures !AllWhitespace(a) ==> TrimStart(a + b) == TrimStart(a) + b && TrimStart(a) != []
  {
    if a == [] {
      assert a + b == b;
    } else {
      assert (a + b)[0] == a[0];
      assert (a + b)[1..] == a[1..] + b;
      TrimStartAppend(a[1..], b);
      if IsWhitespace(a[0]) {
        assert AllWhitespace(a) <==> AllWhitespace(a[1..]) by {
          if AllWhitespace(a[1..]) {
            forall i | 0 <= i < |a| ensures IsWhitespace(a[i]) {
              if i > 0 { assert a[i] == a[1..][i - 1]; }
            }
          }
          if AllWhitespace(a) {
            forall i | 0 <= i < |a[1..]| ensures IsWhitespace(a[1..][i]) {
              assert a[1..][i] == a[i + 1];
            }
          }
        }
      } else {
        assert !AllWhitespace(a) by { assert !IsWhitespace(a[0]); }
      }
    }
  }

  /** A non-empty run of white space collapses to exactly one space. */
  lemma CollapseOfRun(s: string)
    requires s != [] && AllWhitespace(s)
    ensures CollapseWhitespace(s) == " "
  {
    TrimStartCuts(s);
  }

  /**
   When no run of white space straddles the join, the collapse of a
   concatenation is the concatenation of the collapses: every run is replaced
   on its own, and nothing else moves.
   */
  lemma {:induction false} CollapseAppend(a: string, b: string)
    requires JoinsCleanly(a, b)
    decreases |a|
    ensures CollapseWhitespace(a + b) == CollapseWhitespace(a) + CollapseWhitespace(b)
  {
    if a == [] {
      assert a + b == b;
    } else if !IsWhitespace(a[0]) {
      WordJoinsCleanly(a, b);
      CollapseAppend(a[1..], b);
      CollapseAppendWord(a, b);
    } else if AllWhitespace(a) {
      CollapseAppendRun(a, b);
    } else {
      SpaceJoinsCleanly(a, b);
      CollapseAppend(TrimStart(a), b);
      CollapseAppendSpace(a, b);
    }
  }

  lemma WordJoinsCleanly(a: string, b: string)
    requires a != [] && JoinsCleanly(a, b)
    ensures JoinsCleanly(a[1..], b)
  {
    if a[1..] != [] {
      assert a[1..][|a[1..]| - 1] == a[|a| - 1];
    }
  }

  /** The step of `CollapseAppend` for a first character that is not white space. */
  lemma CollapseAppendWord(a: string, b: string)
    requires a != [] && !IsWhitespace(a[0])
    requires CollapseWhitespace(a[1..] + b) == CollapseWhitespace(a[1..]) + CollapseWhitespace(b)
    ensures CollapseWhitespace(a + b) == CollapseWhitespace(a) + CollapseWhitespace(b)
  {
    ConsAppend(a, b);
    CollapseOfWordStart(a + b);
    CollapseOfWordStart(a);
    AppendAssoc([a[0]], CollapseWhitespace(a[1..]), CollapseWhitespace(b));
  }

  lemma AppendAssoc(x: string, y: string, z: string)
    ensures x + (y + z) == (x + y) + z
  {
  }

  /** The head and tail of a concatenation whose first part is not empty. */
  lemma ConsAppend(a: string, b: string)
    requires a != []
    ensures (a + b)[0] == a[0] && (a + b)[1..] == a[1..] + b
  {
  }

  /** One unfolding of the collapse at a character that is not white space. */
  lemma CollapseOfWordStart(s: string)
    requires s != [] && !IsWhitespace(s[0])
    ensures CollapseWhitespace(s) == [s[0]] + CollapseWhitespace(s[1..])
  {
  }

  /** One unfolding of the collapse at a run of white space. */
  lemma CollapseOfSpaceStart(s: string)
    requires s != [] && IsWhitespace(s[0])
    ensures CollapseWhitespace(s) == " " + CollapseWhitespace(TrimStart(s))
  {
  }

  /** `CollapseAppend` when `a` is one run of white space, so `b` starts with a word or is empty. */
  lemma CollapseAppendRun(a: string, b: string)
    requires a != [] && AllWhitespace(a) && JoinsCleanly(a, b)
    ensures CollapseWhitespace(a + b) == CollapseWhitespace(a) + CollapseWhitespace(b)
  {
    assert (a + b)[0] == a[0];
    TrimStartAppend(a, b);
    CollapseOfRun(a);
    assert IsWhitespace(a[|a| - 1]);
    if b != [] {
      assert TrimStart(b) == b;
    }
  }

  lemma SpaceJoinsCleanly(a: string, b: string)
    requires a != [] && !AllWhitespace(a) && JoinsCleanly(a, b)
    ensures |TrimStart(a)| <= |a| && JoinsCleanly(TrimStart(a), b)
  {
    TrimStartAppend(a, b);
    var r := TrimStart(a);
    TrimStartCuts(a);
    assert r[|r| - 1] == a[|a| - 1];
  }

  /** The step of `CollapseAppend` for a leading run of white space followed by more of `a`. */
  lemma CollapseAppendSpace(a: string, b: string)
    requires a != [] && IsWhitespace(a[0]) && !AllWhitespace(a)
    requires CollapseWhitespace(TrimStart(a) + b) == CollapseWhitespace(TrimStart(a)) + CollapseWhitespace(b)
    ensures CollapseWhitespace(a + b) == CollapseWhitespace(a) + CollapseWhitespace(b)
  {
    CollapseOfLeadingRun(a, b);
    CollapseOfSpaceStart(a);
    AppendAssoc(" ", CollapseWhitespace(TrimStart(a)), CollapseWhitespace(b));
  }

  /** A concatenation that starts with a run of white space inside `a` collapses it to one space. */
  lemma CollapseOfLeadingRun(a: string, b: string)
    requires a != [] && IsWhitespace(a[0]) && !AllWhitespace(a)
    ensures CollapseWhitespace(a + b) == " " + CollapseWhitespace(TrimStart(a) + b)
  {
    ConsAppend(a, b);
    TrimStartAppend(a, b);
    CollapseOfSpaceStart(a + b);
  }

  /** A word: a string without any white space. */
  predicate NoWhitespace(s: string) {
    forall i :: 0 <= i < |s| ==> !IsWhitespace(s[i])
  }

  /**
   The collapse read word by word: a word is kept as it is, the run of white
   space after it becomes exactly one space, and the collapse carries on with
   whatever starts the next word.
   */
  lemma CollapseWordThenRun(w: string, run: string, rest: string)
    requires NoWhitespace(w) && run != [] && AllWhitespace(run)
    requires rest == [] || !IsWhitespace(rest[0])
    ensures CollapseWhitespace(w + run + rest) == w + " " + CollapseWhitespace(rest)
  {
    assert JoinsCleanly(w + run, rest);
    CollapseAppend(w + run, rest);
    assert JoinsCleanly(w, run) by {
      if w != [] {
        assert !IsWhitespace(w[|w| - 1]);
      }
    }
    CollapseAppend(w, run);
    CollapseOfRun(run);
    CollapseIdentity(w);
  }

  // ---------------------------------------------------------------------------
  // Character content: the letters and marks survive every step unchanged.

  lemma {:induction false} LettersAndMarksAppend(a: string, b: string)
    ensures LettersAndMarks(a + b) == LettersAndMarks(a) + LettersAndMarks(b)
  {
    if a == [] {
      assert a + b == b;
    } else {
      assert (a + b)[0] == a[0];
      assert (a + b)[1..] == a[1..] + b;
      LettersAndMarksAppend(a[1..], b);
    }
  }

  lemma {:induction false} LettersAndMarksOfWhitespace(s: string)
    requires forall i :: 0 <= i < |s| ==> IsWhitespace(s[i])
    ensures LettersAndMarks(s) == []
  {
    if s != [] {
      LettersAndMarksOfWhitespace(s[1..]);
    }
  }

  lemma {:induction false} KeepPreservesLetters(s: string)
    ensures LettersAndMarks(KeepLettersMarksSpace(s)) == LettersAndMarks(s)
  {
    if s != [] {
      KeepPreservesLetters(s[1..]);
      if IsKept(s[0]) {
        LettersAndMarksAppend([s[0]], KeepLettersMarksSpace(s[1..]));
      }
    }
  }

  lemma {:induction false} CollapsePreservesLetters(s: string)
    decreases |s|
    ensures LettersAndMarks(CollapseWhitespace(s)) == LettersAndMarks(s)
  {
    if s != [] {
      if IsWhitespace(s[0]) {
        var rest := TrimStart(s);
        var k := |s| - |rest|;
        var lead := s[..k];
        TrimStartCuts(s);
        assert rest == s[k..];
        assert CollapseWhitespace(s) == [' '] + CollapseWhitespace(rest);
        CollapsePreservesLetters(rest);
        WhitespaceIsNoLetter(' ');
        assert LettersAndMarks([' ']) == [];
        LettersAndMarksAppend([' '], CollapseWhitespace(rest));
        assert s == lead + rest;
        assert forall i :: 0 <= i < |lead| ==> IsWhitespace(lead[i]);
        LettersAndMarksAppend(lead, rest);
        LettersAndMarksOfWhitespace(lead);
      } else {
        assert CollapseWhitespace(s) == [s[0]] + CollapseWhitespace(s[1..]);
        CollapsePreservesLetters(s[1..]);
        LettersAndMarksAppend([s[0]], CollapseWhitespace(s[1..]));
        assert LettersAndMarks(s) == LettersAndMarks([s[0]]) + LettersAndMarks(s[1..]) by {
          assert s == [s[0]] + s[1..];
          LettersAndMarksAppend([s[0]], s[1..]);
        }
      }
    }
  }

  lemma {:induction false} TrimStartPreservesLetters(s: string)
    ensures LettersAndMarks(TrimStart(s)) == LettersAndMarks(s)
  {
    if s != [] && IsWhitespace(s[0]) {
      WhitespaceIsNoLetter(s[0]);
      assert LettersAndMarks(s) == LettersAndMarks(s[1..]);
      assert TrimStart(s) == TrimStart(s[1..]);
      TrimStartPreservesLetters(s[1..]);
    }
  }

  lemma WhitespaceIsNoLetter(c: char)
    requires IsWhitespace(c)
    ensures !IsLetterOrMark(c)
  {
  }

  lemma {:induction false} TrimEndPreservesLetters(s: string)
    ensures LettersAndMarks(TrimEnd(s)) == LettersAndMarks(s)
  {
    if s != [] && IsWhitespace(s[|s| - 1]) {
      var init := s[..|s| - 1];
      TrimEndPreservesLetters(init);
      assert s == init + [s[|s| - 1]];
      LettersAndMarksAppend(init, [s[|s| - 1]]);
    }
  }

  lemma TrimPreservesLetters(s: string)
    ensures LettersAndMarks(Trim(s)) == LettersAndMarks(s)
  {
    TrimStartPreservesLetters(s);
    TrimEndPreservesLetters(TrimStart(s));
  }

  lemma {:induction false} LowerPreservesLetterPresence(s: string)
    ensures LettersAndMarks(Lower(s)) == [] <==> LettersAndMarks(s) == []
  {
    if s != [] {
      LowerPreservesLetterPresence(s[1..]);
      ToLowerPreservesClass(s[0]);
      assert Lower(s)[1..] == Lower(s[1..]);
    }
  }
}

=== FILE: wake.dfy ===
/**
 The language screen's wake loop (wake.js) as a sequential state machine.

 The module holds the `LOOP_ACTIVE` flag and the adaptive `retryBoost`
 counter. Each running copy of the loop is either at its `while (LOOP_ACTIVE)`
 test or inside an iteration body, and the model counts the copies in each
 position, and the starts still waiting for their permission request. A
 start is guarded only by the flag, so a stop followed by a start can leave
 two copies running. Time is not modelled: the chunk length and the delays
 each iteration would wait are returned as numbers.
 */
module WakeLoop {
  import opened Optional
  import opened Chars
  import opened Text
  import opened LoopOutcome

  const BaseChunkMs: nat := 1000
  const BoostedChunkMs: nat := 1400
  const SettleMs: nat := 120
  const ErrorDelayMs: nat := 160

  /**
   `pending` counts the calls of `startWakeLoop` still waiting for their
   permission request; `atCheck` and `inBody` count the running copies at the
   `while` test and inside an iteration.
   */
  datatype State = State(active: bool, retryBoost: nat, pending: nat, atCheck: nat, inBody: nat)

  /** Module load: the flag is clear, the counter is 0, nothing runs. */
  const Initial := State(false, 0, 0, 0, 0)

  /** The recording window: longer once more than one iteration in a row came back empty. */
  function ChunkDuration(retryBoost: nat): nat {
    if retryBoost > 1 then BoostedChunkMs else BaseChunkMs
  }

  /** An iteration that hands text to the callback. */
  predicate Productive(o: Outcome) {
    o.Ok? && Trim(o.text) != []
  }

  /** An iteration that completes without usable text. */
  predicate Miss(o: Outcome) {
    || o.NoUri? || o.FetchFail? || o.NotOk? || o.FalsyJson?
    || (o.Ok? && Trim(o.text) == [])
  }

  /** What one iteration body leaves behind. */
  datatype Iteration = Iteration(retryBoost: nat, dispatched: Option<string>, chunkMs: nat, delayMs: nat)

  /**
   One pass through the `try` body. A productive response resets the counter and
   calls back with the trimmed text; a missing URI, a failed or non-success
   upload and an empty text each add one; a throw (including a body that is not
   JSON, since `res.json()` is awaited outside any inner `try`) leaves the
   counter alone and waits longer.
   */
  function RunBody(retryBoost: nat, o: Outcome): (it: Iteration)
    ensures it.chunkMs == (if retryBoost > 1 then 1400 else 1000)
    ensures it.dispatched.Some? <==> Productive(o)
    ensures Productive(o) ==> it.retryBoost == 0 && it.dispatched == Some(Trim(o.text)) && it.delayMs == 120
    ensures Miss(o) ==> it.retryBoost == retryBoost + 1 && it.delayMs == 120
    ensures o.Exception? || o.BadJson? ==> it.retryBoost == retryBoost && it.delayMs == 160
  {
    var chunk := ChunkDuration(retryBoost);
    match o
    case NoUri => Iteration(retryBoost + 1, None, chunk, SettleMs)
    case FetchFail => Iteration(retryBoost + 1, None, chunk, SettleMs)
    case NotOk => Iteration(retryBoost + 1, None, chunk, SettleMs)
    case FalsyJson => Iteration(retryBoost + 1, None, chunk, SettleMs)
    case Ok(t) =>
      var text := Trim(t);
      if text != [] then Iteration(0, Some(text), chunk, SettleMs)
      else Iteration(retryBoost + 1, None, chunk, SettleMs)
    case BadJson => Iteration(retryBoost, None, chunk, ErrorDelayMs)
    case Exception => Iteration(retryBoost, None, chunk, ErrorDelayMs)
  }

  /** Every outcome is exactly one of productive, a miss, or a throw. */
  lemma OutcomeClasses(o: Outcome)
    ensures Productive(o) || Miss(o) || o.Exception? || o.BadJson?
    ensures !(Productive(o) && Miss(o))
  {
  }

  // ---------------------------------------------------------------------------
  // Lifecycle

  /**
   `startWakeLoop` runs in two parts: the call tests and sets the flag and asks
   for the microphone (`Start`); later the request settles (`Resolve`). Stops,
   other starts and running copies may act in between.
   */
  datatype Event =
    | Start                         // `startWakeLoop(callback)` up to its permission `await`
    | Resolve(permission: Permission) // one outstanding permission request settles
    | Stop                          // `stopWakeLoop()`
    | Check                         // a running copy evaluates `while (LOOP_ACTIVE)`
    | Body(outcome: Outcome)        // a copy inside an iteration finishes it

  datatype Step = Step(state: State, dispatched: Option<string>)

  /**
   One event. A start only sets the flag and leaves a request outstanding. A
   granted request runs on into the `while` test without yielding: with the
   flag set the new copy is at once inside its first iteration, and with the
   flag cleared by a stop it leaves without running one. A denial clears the
   flag, even one a later start has set; a rejected request ends that call
   with the flag left as it is. `Resolve` with no request
   outstanding, and `Check` and `Body` with no copy in that position, change
   nothing.
   */
  function Next(s: State, e: Event): Step {
    match e
    case Start =>
      if s.active then Step(s, None)
      else Step(s.(active := true, pending := s.pending + 1), None)
    case Resolve(p) =>
      if s.pending == 0 then Step(s, None)
      else
        var t := s.(pending := s.pending - 1);
        (match p
         case Granted =>
           if t.active then Step(t.(inBody := t.inBody + 1), None) else Step(t, None)
         case Denied => Step(t.(active := false), None)
         case RequestFailed => Step(t, None))
    case Stop => Step(s.(active := false), None)
    case Check =>
      if s.atCheck == 0 then Step(s, None)
      else if s.active then Step(s.(atCheck := s.atCheck - 1, inBody := s.inBody + 1), None)
      else Step(s.(atCheck := s.atCheck - 1), None)
    case Body(o) =>
      if s.inBody == 0 then Step(s, None)
      else
        var it := RunBody(s.retryBoost, o);
        Step(s.(retryBoost := it.retryBoost, inBody := s.inBody - 1, atCheck := s.atCheck + 1), it.dispatched)
  }

  /** The number of running copies of the loop. */
  function Copies(s: State): nat {
    s.atCheck + s.inBody
  }

  /** A start is a no-op while the flag is set; otherwise it sets the flag and asks, starting nothing yet. */
  lemma StartRules(s: State)
    ensures s.active ==> Next(s, Start) == Step(s, None)
    ensures !s.active ==>
      Next(s, Start).state.active && Next(s, Start).state.pending == s.pending + 1 &&
      Copies(Next(s, Start).state) == Copies(s)
  {
  }

  /**
   When a request settles: a grant with the flag set adds one copy, already
   inside its first iteration; a grant after a stop adds none; a denial clears
   the flag and starts nothing; a rejection changes nothing but the number of
   outstanding requests.
   */
  lemma ResolveRules(s: State, p: Permission)
    requires s.pending > 0
    ensures Next(s, Resolve(p)).state.pending == s.pending - 1
    ensures p == Granted && s.active ==>
      Next(s, Resolve(p)).state.inBody == s.inBody + 1 && Copies(Next(s, Resolve(p)).state) == Copies(s) + 1 &&
      Next(s, Resolve(p)).state.active
    ensures p == Granted && !s.active ==> Next(s, Resolve(p)).state == s.(pending := s.pending - 1)
    ensures p == Denied ==> !Next(s, Resolve(p)).state.active && Copies(Next(s, Resolve(p)).state) == Copies(s)
    ensures p == RequestFailed ==> Next(s, Resolve(p)).state == s.(pending := s.pending - 1)
  {
  }

  /** Stopping clears the flag and nothing else: copies already running keep going until their next test. */
  lemma StopOnlyClearsFlag(s: State)
    ensures Next(s, Stop) == Step(s.(active := false), None)
    ensures Copies(Next(s, Stop).state) == Copies(s)
    ensures !s.active ==> Next(s, Stop).state == s
  {
  }

  /** A copy that tests the cleared flag leaves the loop instead of starting an iteration. */
  lemma StoppedCopyExits(s: State)
    requires !s.active && s.atCheck > 0
    ensures Copies(Next(s, Check).state) == Copies(s) - 1
    ensures Next(s, Check).state.inBody == s.inBody
  {
  }

  // ---------------------------------------------------------------------------
  // Traces

  datatype Trace = Trace(state: State, dispatched: seq<string>)

  /** The callback text one step produced, as a sequence of zero or one. */
  function Emitted(d: Option<string>): seq<string> {
    if d.Some? then [d.value] else []
  }

  /** Run a sequence of events, collecting the callback texts in order. */
  function Run(s: State, events: seq<Event>): Trace
    decreases |events|
  {
    if events == [] then Trace(s, [])
    else
      var step := Next(s, events[0]);
      var rest := Run(step.state, events[1..]);
      Trace(rest.state, Emitted(step.dispatched) + rest.dispatched)
  }

  /** Running `[e] + rest` is one step of `e` followed by running `rest`. */
  lemma RunCons(s: State, e: Event, rest: seq<Event>)
    ensures Run(s, [e] + rest).state == Run(Next(s, e).state, rest).state
    ensures Run(s, [e] + rest).dispatched == Emitted(Next(s, e).dispatched) + Run(Next(s, e).state, rest).dispatched
  {
    assert ([e] + rest)[0] == e && ([e] + rest)[1..] == rest;
  }

  predicate NoStart(events: seq<Event>) {
    forall i :: 0 <= i < |events| ==> !events[i].Start?
  }

  predicate NoStop(events: seq<Event>) {
    forall i :: 0 <= i < |events| ==> !events[i].Stop?
  }

  /**
   Once the flag is clear and nobody calls start again, no new iteration
   begins, even when an outstanding request is granted, and the callback can
   still fire at most once for each iteration that was already past its test:
   the loop itself never re-checks the flag before calling back.
   */
  lemma {:induction false} AfterStopOnlyInFlightCallbacks(s: State, events: seq<Event>)
    requires !s.active && NoStart(events)
    decreases |events|
    ensures |Run(s, events).dispatched| + Run(s, events).state.inBody <= s.inBody
    ensures !Run(s, events).state.active
  {
    if events != [] {
      var step := Next(s, events[0]);
      assert step.dispatched.Some? ==> step.state.inBody == s.inBody - 1;
      assert step.state.inBody <= s.inBody && !step.state.active;
      assert NoStart(events[1..]) by {
        forall i | 0 <= i < |events[1..]| ensures !events[1..][i].Start? {
          assert events[1..][i] == events[i + 1];
        }
      }
      AfterStopOnlyInFlightCallbacks(step.state, events[1..]);
    }
  }

  /**
   The flag is the only guard: start, stop and start again before the running
   copy has seen the cleared flag leaves two copies sharing one counter.
   */
  lemma RestartRunsTwoCopies()
    ensures Run(Initial, [Start, Resolve(Granted), Stop, Start, Resolve(Granted)]).state.active
    ensures Copies(Run(Initial, [Start, Resolve(Granted), Stop, Start, Resolve(Granted)]).state) == 2
  {
    var s1 := Initial.(active := true, pending := 1);
    var s2 := s1.(pending := 0, inBody := 1);
    var s3 := s2.(active := false);
    var s4 := s2.(pending := 1);
    assert Next(Initial, Start) == Step(s1, None);
    assert Next(s1, Resolve(Granted)) == Step(s2, None);
    assert Next(s2, Stop) == Step(s3, None);
    assert Next(s3, Start) == Step(s4, None);
    assert Next(s4, Resolve(Granted)) == Step(s2.(inBody := 2), None);
  }

  /** A grant that arrives after a stop meets the cleared flag at its first test: nothing runs. */
  lemma GrantAfterStopExits()
    ensures Run(Initial, [Start, Stop, Resolve(Granted)]) == Trace(Initial, [])
  {
    var s1 := Initial.(active := true, pending := 1);
    var s2 := s1.(active := false);
    assert Next(Initial, Start) == Step(s1, None);
    assert Next(s1, Stop) == Step(s2, None);
    assert Next(s2, Resolve(Granted)) == Step(Initial, None);
  }

  /**
   Start, stop and start again while the first request is outstanding: when
   the first request is denied it clears the flag the second start set, so the
   second start's grant runs nothing.
   */
  lemma DenialCancelsLaterStart()
    ensures Run(Initial, [Start, Stop, Start, Resolve(Denied), Resolve(Granted)]) == Trace(Initial, [])
  {
    var s1 := Initial.(active := true, pending := 1);
    var s2 := s1.(active := false);
    var s3 := Initial.(active := true, pending := 2);
    var s4 := Initial.(pending := 1);
    assert Next(Initial, Start) == Step(s1, None);
    assert Next(s1, Stop) == Step(s2, None);
    assert Next(s2, Start) == Step(s3, None);
    assert Next(s3, Resolve(Denied)) == Step(s4, None);
    assert Next(s4, Resolve(Granted)) == Step(Initial, None);
  }

  /**
   With the flag set, nothing running and no request outstanding, every start
   is a no-op and nothing else can happen until someone stops the loop.
   */
  lemma {:induction false} NothingRunsUntilStop(s: State, events: seq<Event>)
    requires s.active && s.pending == 0 && Copies(s) == 0 && NoStop(events)
    decreases |events|
    ensures Run(s, events) == Trace(s, [])
  {
    if events != [] {
      assert !events[0].Stop?;
      assert Next(s, events[0]) == Step(s, None);
      assert NoStop(events[1..]) by {
        forall i | 0 <= i < |events[1..]| ensures !events[1..][i].Stop? {
          assert events[1..][i] == events[i + 1];
        }
      }
      NothingRunsUntilStop(s, events[1..]);
    }
  }

  /**
   A permission request that rejects leaves the flag set with no loop running
   and nothing outstanding, so every later start is a no-op until a stop.
   */
  lemma RejectedPermissionRequestSticks(later: seq<Event>)
    requires NoStop(later)
    ensures Run(Initial, [Start, Resolve(RequestFailed)] + later) == Trace(Initial.(active := true), [])
  {
    var s1 := Initial.(active := true, pending := 1);
    var s2 := Initial.(active := true);
    assert Next(Initial, Start) == Step(s1, None);
    assert Next(s1, Resolve(RequestFailed)) == Step(s2, None);
    assert Run(Initial, [Start, Resolve(RequestFailed)]) == Trace(s2, []);
    RunAppend(Initial, [Start, Resolve(RequestFailed)], later);
    NothingRunsUntilStop(s2, later);
  }

  // ---------------------------------------------------------------------------
  // The counter over consecutive iterations of one copy

  /** The iteration records of consecutive bodies, starting from `retryBoost`. */
  function Iterate(retryBoost: nat, outcomes: seq<Outcome>): (its: seq<Iteration>)
    decreases |outcomes|
    ensures |its| == |outcomes|
  {
    if outcomes == [] then []
    else
      var it := RunBody(retryBoost, outcomes[0]);
      [it] + Iterate(it.retryBoost, outcomes[1..])
  }

  /** The counter after consecutive bodies. */
  function FinalBoost(retryBoost: nat, outcomes: seq<Outcome>): nat
    decreases |outcomes|
  {
    if outcomes == [] then retryBoost
    else FinalBoost(RunBody(retryBoost, outcomes[0]).retryBoost, outcomes[1..])
  }

  /** How many outcomes are misses. */
  function CountMisses(outcomes: seq<Outcome>): nat {
    if outcomes == [] then 0
    else (if Miss(outcomes[0]) then 1 else 0) + CountMisses(outcomes[1..])
  }

  /** The index of the last productive outcome, if any. */
  function LastProductive(outcomes: seq<Outcome>): (r: Option<nat>)
    ensures r.Some? ==> r.value < |outcomes| && Productive(outcomes[r.value])
    ensures r.Some? ==> forall i :: r.value < i < |outcomes| ==> !Productive(outcomes[i])
    ensures r.None? ==> forall i :: 0 <= i < |outcomes| ==> !Productive(outcomes[i])
  {
    if outcomes == [] then None
    else
      var rest := LastProductive(outcomes[1..]);
      if rest.Some? then Some(rest.value + 1)
      else if Productive(outcomes[0]) then Some(0)
      else None
  }

  /**
   The counter counts the misses since the last productive iteration (or since
   the start, on top of the initial value, when there was none); throws do not
   count.
   */
  lemma {:induction false} BoostCountsMissesSinceSuccess(retryBoost: nat, outcomes: seq<Outcome>)
    decreases |outcomes|
    ensures LastProductive(outcomes).None? ==>
      FinalBoost(retryBoost, outcomes) == retryBoost + CountMisses(outcomes)
    ensures LastProductive(outcomes).Some? ==>
      FinalBoost(retryBoost, outcomes) == CountMisses(outcomes[LastProductive(outcomes).value + 1..])
  {
    if outcomes != [] {
      var o, rest := outcomes[0], outcomes[1..];
      var b := RunBody(retryBoost, o).retryBoost;
      BoostCountsMissesSinceSuccess(b, rest);
      BoostStep(retryBoost, outcomes);
      if LastProductive(rest).Some? {
        var j := LastProductive(rest).value;
        assert outcomes[j + 2..] == rest[j + 1..];
      }
    }
  }

  /** How one body relates the three recursive measures on `outcomes` to those on its tail. */
  lemma BoostStep(retryBoost: nat, outcomes: seq<Outcome>)
    requires outcomes != []
    ensures FinalBoost(retryBoost, outcomes) == FinalBoost(RunBody(retryBoost, outcomes[0]).retryBoost, outcomes[1..])
    ensures CountMisses(outcomes) == (if Miss(outcomes[0]) then 1 else 0) + CountMisses(outcomes[1..])
    ensures LastProductive(outcomes[1..]).Some? ==> LastProductive(outcomes) == Some(LastProductive(outcomes[1..]).value + 1)
    ensures LastProductive(outcomes[1..]).None? && Productive(outcomes[0]) ==>
      LastProductive(outcomes) == Some(0) && RunBody(retryBoost, outcomes[0]).retryBoost == 0
    ensures LastProductive(outcomes[1..]).None? && !Productive(outcomes[0]) ==>
      LastProductive(outcomes) == None &&
      RunBody(retryBoost, outcomes[0]).retryBoost == retryBoost + (if Miss(outcomes[0]) then 1 else 0)
  {
    OutcomeClasses(outcomes[0]);
  }

  /** The texts the callback receives: the trimmed text of each productive outcome, in order. */
  function ProductiveTexts(outcomes: seq<Outcome>): seq<string> {
    if outcomes == [] then []
    else (if Productive(outcomes[0]) then [Trim(outcomes[0].text)] else []) + ProductiveTexts(outcomes[1..])
  }

  function Dispatched(its: seq<Iteration>): seq<string> {
    if its == [] then []
    else Emitted(its[0].dispatched) + Dispatched(its[1..])
  }

  /** Whatever the counter, the callback sees exactly the productive texts, in order. */
  lemma {:induction false} CallbacksAreProductiveTexts(retryBoost: nat, outcomes: seq<Outcome>)
    decreases |outcomes|
    ensures Dispatched(Iterate(retryBoost, outcomes)) == ProductiveTexts(outcomes)
  {
    if outcomes != [] {
      var it := RunBody(retryBoost, outcomes[0]);
      CallbacksAreProductiveTexts(it.retryBoost, outcomes[1..]);
      assert Iterate(retryBoost, outcomes)[1..] == Iterate(it.retryBoost, outcomes[1..]);
    }
  }

  /** The iterations for two empty transcripts followed by `t`, from a zero counter. */
  function TwoEmptyThen(t: string): (its: seq<Iteration>)
    ensures |its| == 3
  {
    Iterate(0, [Ok([]), Ok([]), Ok(t)])
  }

  /**
   Two empty transcripts then a spoken one: the counter reads 1, 2, 0, the third
   window is the long one, and the callback fires once, with the trimmed text.
   */
  lemma EmptyEmptyThenText(t: string)
    requires Trim(t) != []
    ensures TwoEmptyThen(t)[0].retryBoost == 1 && TwoEmptyThen(t)[1].retryBoost == 2 && TwoEmptyThen(t)[2].retryBoost == 0
    ensures TwoEmptyThen(t)[0].chunkMs == 1000 && TwoEmptyThen(t)[1].chunkMs == 1000 && TwoEmptyThen(t)[2].chunkMs == 1400
    ensures TwoEmptyThen(t)[0].dispatched == None && TwoEmptyThen(t)[1].dispatched == None
    ensures TwoEmptyThen(t)[2].dispatched == Some(Trim(t))
  {
    var empty: string := [];
    assert Miss(Ok(empty));
    var i0 := RunBody(0, Ok(empty));
    var i1 := RunBody(1, Ok(empty));
    var i2 := RunBody(2, Ok(t));
    assert i0.retryBoost == 1 && i1.retryBoost == 2 && i2.retryBoost == 0;
    assert Iterate(2, [Ok(t)]) == [i2];
    assert Iterate(1, [Ok(empty), Ok(t)]) == [i1, i2] by {
      assert [Ok(empty), Ok(t)][1..] == [Ok(t)];
    }
    assert TwoEmptyThen(t) == [i0, i1, i2] by {
      assert [Ok(empty), Ok(empty), Ok(t)][1..] == [Ok(empty), Ok(t)];
    }
  }

  /** The same with "हाँ next" ("haan next"), which trimming leaves as it is. */
  lemma HaanNextAfterTwoEmpty(t: string)
    requires t == "\U{0939}\U{093E}\U{0901} next"
    ensures TwoEmptyThen(t)[1].retryBoost == 2 && TwoEmptyThen(t)[2].retryBoost == 0
    ensures TwoEmptyThen(t)[2].dispatched == Some(t)
  {
    HaanNextIsTrimmed(t);
    EmptyEmptyThenText(t);
  }

  lemma HaanNextIsTrimmed(t: string)
    requires t == "\U{0939}\U{093E}\U{0901} next"
    ensures Trim(t) == t != []
  {
    assert !IsWhitespace(t[0]) && !IsWhitespace(t[|t| - 1]);
    TrimIdentity(t);
  }

  /**
   An iteration already past its test when the loop is stopped still calls
   back: nothing between the response and the callback looks at the flag.
   */
  lemma CallbackAfterStop(s: State, t: string)
    requires s.inBody > 0 && Trim(t) != []
    ensures !Next(s, Stop).state.active
    ensures Next(Next(s, Stop).state, Body(Ok(t))).dispatched == Some(Trim(t))
  {
  }

  // ---------------------------------------------------------------------------
  // One copy running undisturbed

  /** Run `a` then `b`: the state threads through and the callback texts concatenate. */
  lemma {:induction false} RunAppend(s: State, a: seq<Event>, b: seq<Event>)
    decreases |a|
    ensures Run(s, a + b).state == Run(Run(s, a).state, b).state
    ensures Run(s, a + b).dispatched == Run(s, a).dispatched + Run(Run(s, a).state, b).dispatched
  {
    if a != [] {
      assert (a + b)[0] == a[0];
      assert (a + b)[1..] == a[1..] + b;
      RunAppend(Next(s, a[0]).state, a[1..], b);
    } else {
      assert a + b == b;
    }
  }

  /** The events of a copy that tests the flag and then completes one iteration per outcome. */
  function Cycles(outcomes: seq<Outcome>): (events: seq<Event>)
    decreases |outcomes|
    ensures |events| == 2 * |outcomes|
  {
    if outcomes == [] then [] else [Check, Body(outcomes[0])] + Cycles(outcomes[1..])
  }

  /**
   While the flag stays set, a single copy's iterations update the counter and
   call back exactly as the iteration-by-iteration reference says.
   */
  lemma {:induction false} SingleCopyFollowsIterations(s: State, outcomes: seq<Outcome>)
    requires s.active && s.atCheck == 1 && s.inBody == 0
    decreases |outcomes|
    ensures Run(s, Cycles(outcomes)).state == s.(retryBoost := FinalBoost(s.retryBoost, outcomes))
    ensures Run(s, Cycles(outcomes)).dispatched == Dispatched(Iterate(s.retryBoost, outcomes))
  {
    if outcomes != [] {
      var head: seq<Event> := [Check, Body(outcomes[0])];
      var it := RunBody(s.retryBoost, outcomes[0]);
      var s2 := s.(retryBoost := it.retryBoost);
      var s1 := s.(atCheck := 0, inBody := 1);
      assert Next(s, Check) == Step(s1, None);
      assert Next(s1, Body(outcomes[0])) == Step(s2, it.dispatched);
      RunCons(s1, Body(outcomes[0]), []);
      RunCons(s, Check, [Body(outcomes[0])]);
      RunAppend(s, head, Cycles(outcomes[1..]));
      SingleCopyFollowsIterations(s2, outcomes[1..]);
      assert Iterate(s.retryBoost, outcomes)[1..] == Iterate(it.retryBoost, outcomes[1..]);
    }
  }
}

=== FILE: wake_onboarding.dfy ===
/**
 The onboarding screen's wake loop (wake_onboarding.js) as a sequential state
 machine.

 Besides the `LOOP_ACTIVE` flag it keeps `loopPromise`, the handle of the one
 running loop, and `currentRecording`, the recorder in use. A start spawns a
 loop only when no loop is running, so there is never more than one; a stop
 clears the flag and releases the recorder; a loop that sees the cleared flag
 releases the recorder and forgets its handle. The callback a loop calls is the
 one it was spawned with, and every successful response is passed on, even an
 empty text.
 */
module WakeLoopOnboarding {
  import opened Optional
  import opened LoopOutcome
  import WakeLoop

  const ChunkMs: nat := 900
  const NoUriDelayMs: nat := 100
  const SettleMs: nat := 120
  const ErrorDelayMs: nat := 150

  /**
   `callback` identifies the function the running loop was spawned with;
   `pending` holds, for each call of the start function still waiting for its
   permission request, the callback it was given; `atCheck` and `inBody` count
   the loop copies at the `while` test and inside an iteration.
   */
  datatype State = State(
    active: bool,
    loopPromise: bool,
    recording: bool,
    callback: nat,
    pending: seq<nat>,
    atCheck: nat,
    inBody: nat)

  /** Module load: nothing set, nothing running. */
  const Initial := State(false, false, false, 0, [], 0, 0)

  function Copies(s: State): nat {
    s.atCheck + s.inBody
  }

  /**
   What always holds: at most one loop runs, a running loop has its handle
   set, and a recorder is only held by a running loop. The handle can be set
   with no loop behind it (see `Stuck`).
   */
  predicate Valid(s: State) {
    && Copies(s) <= 1
    && (Copies(s) == 1 ==> s.loopPromise)
    && (s.recording ==> Copies(s) == 1)
  }

  /** What the handle is meant to mean: it is set exactly while one loop runs. */
  predicate HandleExact(s: State) {
    && Copies(s) == (if s.loopPromise then 1 else 0)
    && (s.recording ==> s.loopPromise)
  }

  /** The handle is set but no loop runs: every later grant returns at the handle test. */
  predicate Stuck(s: State) {
    s.loopPromise && Copies(s) == 0
  }

  /** What one iteration body leaves behind. */
  datatype Iteration = Iteration(dispatched: Option<string>, releasesRecording: bool, chunkMs: nat, delayMs: nat)

  /**
   One pass through the loop body. The recorder is released as soon as its URI
   has been read; without a URI the loop waits 100 ms and skips the common
   120 ms pause; a successful response whose body parses to a truthy value is
   passed on as `json.text || ""`; a body that does not parse, a failed upload
   and a non-success status pass nothing; a throw before the URI was read keeps
   the recorder and waits 150 ms before the common pause.
   */
  function RunBody(o: Outcome): (it: Iteration)
    ensures it.chunkMs == 900
    ensures it.dispatched.Some? <==> o.Ok?
    ensures o.Ok? ==> it.dispatched == Some(o.text)
    ensures it.releasesRecording <==> !o.Exception?
    ensures it.delayMs == (if o.NoUri? then 100 else if o.Exception? then 150 + 120 else 120)
  {
    match o
    case NoUri => Iteration(None, true, ChunkMs, NoUriDelayMs)
    case FetchFail => Iteration(None, true, ChunkMs, SettleMs)
    case NotOk => Iteration(None, true, ChunkMs, SettleMs)
    case Ok(t) => Iteration(Some(t), true, ChunkMs, SettleMs)
    case FalsyJson => Iteration(None, true, ChunkMs, SettleMs)
    case BadJson => Iteration(None, true, ChunkMs, SettleMs)
    case Exception => Iteration(None, false, ChunkMs, ErrorDelayMs + SettleMs)
  }

  /**
   Where the two loops part on an empty transcript: this one calls back with
   "", the language screen's loop calls back with nothing and counts a miss.
   */
  lemma EmptyTextContrast(retryBoost: nat)
    ensures RunBody(Ok("")).dispatched == Some("")
    ensures WakeLoop.RunBody(retryBoost, Ok("")).dispatched == None
    ensures WakeLoop.RunBody(retryBoost, Ok("")).retryBoost == retryBoost + 1
  {
    assert WakeLoop.Miss(Ok(""));
  }

  // ---------------------------------------------------------------------------
  // Lifecycle

  /**
   `startWakeLoopOnboarding` runs in two parts: the call tests and sets the
   flag and asks for the microphone (`Start`); later one of the outstanding
   requests settles (`Resolve`, naming which by its position in `pending`).
   Stops, other starts and the running loop may act in between.
   */
  datatype Event =
    | Start(callback: nat)                         // `startWakeLoopOnboarding(callback)` up to its `await`
    | Resolve(permission: Permission, index: nat)  // the request of `pending[index]` settles
    | Stop                                         // `stopWakeLoopOnboarding()`
    | Check                                        // the loop evaluates `while (LOOP_ACTIVE)`
    | Body(outcome: Outcome)                       // the loop finishes an iteration

  /** A call of the callback: which function, with which text. */
  datatype Call = Call(callback: nat, text: string)

  datatype Step = Step(state: State, dispatched: Option<Call>)

  /** `pending` without its `i`-th entry. */
  function Without(pending: seq<nat>, i: nat): (r: seq<nat>)
    requires i < |pending|
    ensures |r| == |pending| - 1
    ensures forall j :: 0 <= j < i ==> r[j] == pending[j]
    ensures forall j :: i <= j < |r| ==> r[j] == pending[j + 1]
  {
    pending[..i] + pending[i + 1..]
  }

  /**
   A granted request that finds no handle spawns `runLoop(callback)`, which
   runs without yielding until its first `await`. With the flag set the new
   loop passes its first test and takes a recorder before anything else can
   happen: it is inside its first iteration. With the flag already
   cleared by a stop, `runLoop` skips the `while`; holding no recorder it
   reaches `loopPromise = null` before returning, so the caller's
   `loopPromise = runLoop(...)` then stores a settled promise: the handle is
   set and no loop runs. (Were a recorder held, `runLoop` would await its
   release and clear the handle afterwards.)
   */
  function Grant(t: State, cb: nat): State {
    if t.loopPromise then t
    else if t.active then t.(loopPromise := true, callback := cb, inBody := t.inBody + 1, recording := true)
    else if t.recording then t.(recording := false)
    else t.(loopPromise := true)
  }

  /**
   One event. A start only sets the flag and records a request; a denial
   clears the flag, even one a later start has set; a rejected request is
   swallowed with the flag left as it is. `Resolve` naming no outstanding
   request, and `Check` and `Body` with no copy in that position, change
   nothing.
   */
  function Next(s: State, e: Event): Step {
    match e
    case Start(cb) =>
      if s.active then Step(s, None)
      else Step(s.(active := true, pending := s.pending + [cb]), None)
    case Resolve(p, i) =>
      if i >= |s.pending| then Step(s, None)
      else
        var t := s.(pending := Without(s.pending, i));
        (match p
         case Granted => Step(Grant(t, s.pending[i]), None)
         case Denied => Step(t.(active := false), None)
         case RequestFailed => Step(t, None))
    case Stop => Step(s.(active := false, recording := false), None)
    case Check =>
      if s.atCheck == 0 then Step(s, None)
      else if s.active then Step(s.(atCheck := s.atCheck - 1, inBody := s.inBody + 1, recording := true), None)
      else Step(s.(atCheck := s.atCheck - 1, recording := false, loopPromise := false), None)
    case Body(o) =>
      if s.inBody == 0 then Step(s, None)
      else
        var it := RunBody(o);
        Step(
          s.(inBody := s.inBody - 1, atCheck := s.atCheck + 1,
             recording := if it.releasesRecording then false else s.recording),
          if it.dispatched.Some? then Some(Call(s.callback, it.dispatched.value)) else None)
  }

  /** Every event keeps the state valid. */
  lemma NextPreservesValid(s: State, e: Event)
    requires Valid(s)
    ensures Valid(Next(s, e).state)
  {
  }

  /** A start is a no-op while the flag is set; otherwise it sets the flag and records its request, spawning nothing yet. */
  lemma StartRules(s: State, cb: nat)
    ensures s.active ==> Next(s, Start(cb)) == Step(s, None)
    ensures !s.active ==>
      Next(s, Start(cb)).state.active && Next(s, Start(cb)).state.pending == s.pending + [cb] &&
      Copies(Next(s, Start(cb)).state) == Copies(s) && Next(s, Start(cb)).state.loopPromise == s.loopPromise
  {
  }

  /**
   When the request of `pending[i]` is granted: with a handle set nothing is
   spawned; with none set and the flag set, a loop with that request's
   callback is at once inside its first iteration, holding a recorder; with
   none set and the flag cleared, the handle is left set with no loop behind
   it.
   */
  lemma GrantRules(s: State, i: nat)
    requires Valid(s) && i < |s.pending|
    ensures Next(s, Resolve(Granted, i)).state.pending == Without(s.pending, i)
    ensures s.loopPromise ==> Next(s, Resolve(Granted, i)).state == s.(pending := Without(s.pending, i))
    ensures !s.loopPromise && s.active ==>
      Next(s, Resolve(Granted, i)).state.callback == s.pending[i] &&
      Next(s, Resolve(Granted, i)).state.inBody == 1 && Copies(Next(s, Resolve(Granted, i)).state) == 1 &&
      Next(s, Resolve(Granted, i)).state.recording
    ensures !s.loopPromise && !s.active ==> Stuck(Next(s, Resolve(Granted, i)).state)
  {
  }

  /** A denial clears the flag and a rejection changes nothing else; neither spawns a loop. */
  lemma RefusalRules(s: State, p: Permission, i: nat)
    requires i < |s.pending| && p != Granted
    ensures Next(s, Resolve(p, i)).state.pending == Without(s.pending, i)
    ensures p == Denied ==> Next(s, Resolve(p, i)).state == s.(active := false, pending := Without(s.pending, i))
    ensures p == RequestFailed ==> Next(s, Resolve(p, i)).state == s.(pending := Without(s.pending, i))
  {
  }

  /** Stopping clears the flag and releases the recorder, and leaves the loop handle alone. */
  lemma StopReleases(s: State)
    ensures !Next(s, Stop).state.active && !Next(s, Stop).state.recording
    ensures Next(s, Stop).state.loopPromise == s.loopPromise && Copies(Next(s, Stop).state) == Copies(s)
  {
  }

  /** An iteration that got as far as reading the URI leaves no recorder held. */
  lemma ReleasedAfterUri(s: State, o: Outcome)
    requires s.inBody > 0 && !o.Exception?
    ensures !Next(s, Body(o)).state.recording
  {
  }

  /** A loop that sees the cleared flag releases the recorder and forgets its handle. */
  lemma ExitReleases(s: State)
    requires Valid(s) && !s.active && s.atCheck > 0
    ensures !Next(s, Check).state.recording && !Next(s, Check).state.loopPromise
    ensures Copies(Next(s, Check).state) == 0
  {
  }

  // ---------------------------------------------------------------------------
  // Traces

  datatype Trace = Trace(state: State, dispatched: seq<Call>)

  function Emitted(d: Option<Call>): seq<Call> {
    if d.Some? then [d.value] else []
  }

  function Run(s: State, events: seq<Event>): Trace
    decreases |events|
  {
    if events == [] then Trace(s, [])
    else
      var step := Next(s, events[0]);
      var rest := Run(step.state, events[1..]);
      Trace(rest.state, Emitted(step.dispatched) + rest.dispatched)
  }

  /** Running `[e] + rest` is one step of `e` followed by running `rest`. */
  lemma RunCons(s: State, e: Event, rest: seq<Event>)
    ensures Run(s, [e] + rest).state == Run(Next(s, e).state, rest).state
    ensures Run(s, [e] + rest).dispatched == Emitted(Next(s, e).dispatched) + Run(Next(s, e).state, rest).dispatched
  {
    assert ([e] + rest)[0] == e && ([e] + rest)[1..] == rest;
  }

  /** Whatever happens, at most one loop runs. */
  lemma {:induction false} AtMostOneLoop(s: State, events: seq<Event>)
    requires Valid(s)
    decreases |events|
    ensures Valid(Run(s, events).state)
    ensures Copies(Run(s, events).state) <= 1
  {
    if events != [] {
      NextPreservesValid(s, events[0]);
      AtMostOneLoop(Next(s, events[0]).state, events[1..]);
    }
  }

  predicate NoStart(events: seq<Event>) {
    forall i :: 0 <= i < |events| ==> !events[i].Start?
  }

  /**
   After a stop, with no new start, the callback fires at most once more: for
   the iteration that was already in flight, which does not look at the flag
   before calling back. An outstanding request granted meanwhile spawns nothing.
   */
  lemma {:induction false} AfterStopAtMostOneCallback(s: State, events: seq<Event>)
    requires Valid(s) && !s.active && NoStart(events)
    decreases |events|
    ensures |Run(s, events).dispatched| + Run(s, events).state.inBody <= s.inBody <= 1
    ensures !Run(s, events).state.active
  {
    if events != [] {
      var step := Next(s, events[0]);
      NextPreservesValid(s, events[0]);
      assert step.dispatched.Some? ==> step.state.inBody == s.inBody - 1;
      assert NoStart(events[1..]) by {
        forall i | 0 <= i < |events[1..]| ensures !events[1..][i].Start? {
          assert events[1..][i] == events[i + 1];
        }
      }
      AfterStopAtMostOneCallback(step.state, events[1..]);
    }
  }

  /** The in-flight iteration does call back after the stop, with the loop's own callback. */
  lemma CallbackAfterStop(s: State, text: string)
    requires s.inBody > 0
    ensures !Next(s, Stop).state.active
    ensures Next(Next(s, Stop).state, Body(Ok(text))).dispatched == Some(Call(s.callback, text))
  {
  }

  /**
   A stuck handle stays stuck whatever happens next: no loop is ever spawned
   again and the callback is never called.
   */
  lemma {:induction false} StuckIsForever(s: State, events: seq<Event>)
    requires Stuck(s)
    decreases |events|
    ensures Stuck(Run(s, events).state)
    ensures Run(s, events).dispatched == []
  {
    if events != [] {
      var step := Next(s, events[0]);
      assert Stuck(step.state) && step.dispatched == None;
      StuckIsForever(step.state, events[1..]);
    }
  }

  /**
   A stop while the first start waits for permission, then the grant: the
   handle is left set with no loop, and from then on nothing the screen does
   brings the callback back.
   */
  lemma GrantAfterStopSticks(later: seq<Event>)
    ensures Stuck(Run(Initial, [Start(1), Stop, Resolve(Granted, 0)]).state)
    ensures Run(Initial, [Start(1), Stop, Resolve(Granted, 0)] + later).dispatched == []
  {
    var s1 := Initial.(active := true, pending := [1]);
    var s2 := s1.(active := false);
    var s3 := Initial.(loopPromise := true);
    assert Next(Initial, Start(1)) == Step(s1, None);
    assert Next(s1, Stop) == Step(s2, None);
    assert Without([1], 0) == [];
    assert Next(s2, Resolve(Granted, 0)) == Step(s3, None);
    assert Run(Initial, [Start(1), Stop, Resolve(Granted, 0)]) == Trace(s3, []);
    RunAppend(Initial, [Start(1), Stop, Resolve(Granted, 0)], later);
    StuckIsForever(s3, later);
  }

  /**
   The same state machine with the flag re-read after the permission request,
   as in `if (!LOOP_ACTIVE || loopPromise) return;`: a grant that arrives after
   a stop spawns nothing and leaves no handle.
   */
  function GuardedNext(s: State, e: Event): Step {
    if e.Resolve? && e.permission == Granted && e.index < |s.pending| && !s.active then
      Step(s.(pending := Without(s.pending, e.index)), None)
    else Next(s, e)
  }

  /** With the guard, the handle is set exactly while one loop runs, whatever happens. */
  lemma GuardedKeepsHandleExact(s: State, e: Event)
    requires HandleExact(s)
    ensures HandleExact(GuardedNext(s, e).state)
    ensures !Stuck(GuardedNext(s, e).state)
  {
  }

  /** `Run` with the guarded step. */
  function GuardedRun(s: State, events: seq<Event>): Trace
    decreases |events|
  {
    if events == [] then Trace(s, [])
    else
      var step := GuardedNext(s, events[0]);
      var rest := GuardedRun(step.state, events[1..]);
      Trace(rest.state, Emitted(step.dispatched) + rest.dispatched)
  }

  /** With the guard, no sequence of events leaves the handle set without a loop, or a loop without the handle. */
  lemma {:induction false} GuardedRunKeepsHandleExact(s: State, events: seq<Event>)
    requires HandleExact(s)
    decreases |events|
    ensures HandleExact(GuardedRun(s, events).state)
    ensures Copies(GuardedRun(s, events).state) <= 1
  {
    if events != [] {
      GuardedKeepsHandleExact(s, events[0]);
      GuardedRunKeepsHandleExact(GuardedNext(s, events[0]).state, events[1..]);
    }
  }

  /**
   The trace that leaves the handle stuck, under the guard: the late grant is
   dropped, and the next start's grant spawns a loop with its callback.
   */
  lemma GuardedGrantAfterStopRecovers()
    ensures GuardedRun(Initial, [Start(1), Stop, Resolve(Granted, 0), Start(2), Resolve(Granted, 0)]).state.loopPromise
    ensures GuardedRun(Initial, [Start(1), Stop, Resolve(Granted, 0), Start(2), Resolve(Granted, 0)]).state.callback == 2
    ensures Copies(GuardedRun(Initial, [Start(1), Stop, Resolve(Granted, 0), Start(2), Resolve(Granted, 0)]).state) == 1
  {
    var s1 := Initial.(active := true, pending := [1]);
    var s2 := s1.(active := false);
    var s4 := Initial.(active := true, pending := [2]);
    assert Without([1], 0) == [] && Without([2], 0) == [];
    assert GuardedNext(Initial, Start(1)) == Step(s1, None);
    assert GuardedNext(s1, Stop) == Step(s2, None);
    assert GuardedNext(s2, Resolve(Granted, 0)) == Step(Initial, None);
    assert GuardedNext(Initial, Start(2)) == Step(s4, None);
    assert GuardedNext(s4, Resolve(Granted, 0)) ==
      Step(Initial.(active := true, loopPromise := true, callback := 2, inBody := 1, recording := true), None);
  }

  /**
   Start, stop and start again before the loop has seen the cleared flag: the
   second grant finds the handle set, so the one old loop keeps running and
   goes on calling the first caller's callback with every successful text.
   */
  lemma RestartKeepsOldCallback(outcomes: seq<Outcome>)
    ensures Run(Initial, Restart() + Cycles(outcomes)).dispatched == CallsTo(1, OkTexts(outcomes))
    ensures Copies(Run(Initial, Restart() + Cycles(outcomes)).state) == 1
  {
    var s1 := Initial.(active := true, pending := [1]);
    var s2 := Initial.(active := true, loopPromise := true, callback := 1, inBody := 1, recording := true);
    var s3 := s2.(active := false, recording := false);
    var s4 := s3.(active := true, pending := [2]);
    var s5 := s3.(active := true);
    assert Without([1], 0) == [] && Without([2], 0) == [];
    assert Next(Initial, Start(1)) == Step(s1, None);
    assert Next(s1, Resolve(Granted, 0)) == Step(s2, None);
    assert Next(s2, Stop) == Step(s3, None);
    assert Next(s3, Start(2)) == Step(s4, None);
    assert Next(s4, Resolve(Granted, 0)) == Step(s5, None);
    assert Run(Initial, Restart()) == Trace(s5, []);
    RunAppend(Initial, Restart(), Cycles(outcomes));
    LoopCallsBackWithOkTexts(s5, outcomes);
  }

  /** Start with callback 1, grant, stop, start with callback 2, grant. */
  function Restart(): seq<Event> {
    [Start(1), Resolve(Granted, 0), Stop, Start(2), Resolve(Granted, 0)]
  }

  /** Once the old loop has exited, a new start spawns a fresh loop with the new callback. */
  lemma RestartAfterExitUsesNewCallback()
    ensures Run(Initial, RestartAfterExit()).state.loopPromise
    ensures Run(Initial, RestartAfterExit()).state.callback == 2
    ensures Copies(Run(Initial, RestartAfterExit()).state) == 1
  {
    var s1 := Initial.(active := true, pending := [1]);
    var s2 := Initial.(active := true, loopPromise := true, callback := 1, inBody := 1, recording := true);
    var s3 := s2.(active := false, recording := false);
    var s4 := s3.(inBody := 0, atCheck := 1);
    var s5 := s4.(atCheck := 0, loopPromise := false);
    var s6 := s5.(active := true, pending := [2]);
    assert Without([1], 0) == [] && Without([2], 0) == [];
    assert Next(Initial, Start(1)) == Step(s1, None);
    assert Next(s1, Resolve(Granted, 0)) == Step(s2, None);
    assert Next(s2, Stop) == Step(s3, None);
    assert Next(s3, Body(FetchFail)) == Step(s4, None);
    assert Next(s4, Check) == Step(s5, None);
    assert Next(s5, Start(2)) == Step(s6, None);
    assert Next(s6, Resolve(Granted, 0)) ==
      Step(s5.(active := true, loopPromise := true, callback := 2, inBody := 1, recording := true), None);
  }

  /**
   Start with callback 1, grant, stop; the loop finishes its iteration (an
   upload that fails) and sees the cleared flag; start with callback 2, grant.
   */
  function RestartAfterExit(): seq<Event> {
    [Start(1), Resolve(Granted, 0), Stop, Body(FetchFail), Check, Start(2), Resolve(Granted, 0)]
  }

  predicate NoStop(events: seq<Event>) {
    forall i :: 0 <= i < |events| ==> !events[i].Stop?
  }

  /**
   With the flag set, no loop, no handle and no request outstanding, every
   start is a no-op and nothing else can happen until someone stops the loop.
   */
  lemma {:induction false} NothingRunsUntilStop(s: State, events: seq<Event>)
    requires s.active && s.pending == [] && Copies(s) == 0 && NoStop(events)
    decreases |events|
    ensures Run(s, events) == Trace(s, [])
  {
    if events != [] {
      assert !events[0].Stop?;
      assert Next(s, events[0]) == Step(s, None);
      assert NoStop(events[1..]) by {
        forall i | 0 <= i < |events[1..]| ensures !events[1..][i].Stop? {
          assert events[1..][i] == events[i + 1];
        }
      }
      NothingRunsUntilStop(s, events[1..]);
    }
  }

  /**
   A permission request that rejects is swallowed with the flag left set and
   no loop spawned, so every later start is a no-op until a stop.
   */
  lemma RejectedPermissionRequestSticks(later: seq<Event>)
    requires NoStop(later)
    ensures Run(Initial, [Start(1), Resolve(RequestFailed, 0)] + later) == Trace(Initial.(active := true), [])
  {
    var s1 := Initial.(active := true, pending := [1]);
    var s2 := Initial.(active := true);
    assert Without([1], 0) == [];
    assert Next(Initial, Start(1)) == Step(s1, None);
    assert Next(s1, Resolve(RequestFailed, 0)) == Step(s2, None);
    assert Run(Initial, [Start(1), Resolve(RequestFailed, 0)]) == Trace(s2, []);
    RunAppend(Initial, [Start(1), Resolve(RequestFailed, 0)], later);
    NothingRunsUntilStop(s2, later);
  }

  // ---------------------------------------------------------------------------
  // The loop running undisturbed

  lemma {:induction false} RunAppend(s: State, a: seq<Event>, b: seq<Event>)
    decreases |a|
    ensures Run(s, a + b).state == Run(Run(s, a).state, b).state
    ensures Run(s, a + b).dispatched == Run(s, a).dispatched + Run(Run(s, a).state, b).dispatched
  {
    if a != [] {
      assert (a + b)[0] == a[0];
      assert (a + b)[1..] == a[1..] + b;
      RunAppend(Next(s, a[0]).state, a[1..], b);
    } else {
      assert a + b == b;
    }
  }

  /** The events of the loop completing one iteration per outcome, each followed by the next flag test. */
  function Cycles(outcomes: seq<Outcome>): (events: seq<Event>)
    decreases |outcomes|
    ensures |events| == 2 * |outcomes|
  {
    if outcomes == [] then [] else [Body(outcomes[0]), Check] + Cycles(outcomes[1..])
  }

  /** The texts of the successful responses, in order. */
  function OkTexts(outcomes: seq<Outcome>): seq<string> {
    if outcomes == [] then []
    else (if outcomes[0].Ok? then [outcomes[0].text] else []) + OkTexts(outcomes[1..])
  }

  function CallsTo(cb: nat, texts: seq<string>): (calls: seq<Call>)
    ensures |calls| == |texts|
    ensures forall i :: 0 <= i < |texts| ==> calls[i] == Call(cb, texts[i])
  {
    if texts == [] then [] else [Call(cb, texts[0])] + CallsTo(cb, texts[1..])
  }

  /**
   While the flag stays set, the loop hands every successful response's text,
   and nothing else, to the callback it was spawned with, in order.
   */
  lemma {:induction false} LoopCallsBackWithOkTexts(s: State, outcomes: seq<Outcome>)
    requires s.active && s.atCheck == 0 && s.inBody == 1
    decreases |outcomes|
    ensures Run(s, Cycles(outcomes)).dispatched == CallsTo(s.callback, OkTexts(outcomes))
    ensures Run(s, Cycles(outcomes)).state.active
    ensures Run(s, Cycles(outcomes)).state.atCheck == 0 && Run(s, Cycles(outcomes)).state.inBody == 1
    ensures Run(s, Cycles(outcomes)).state.callback == s.callback
    ensures Run(s, Cycles(outcomes)).state.loopPromise == s.loopPromise
  {
    if outcomes != [] {
      var o := outcomes[0];
      var head: seq<Event> := [Body(o), Check];
      var s1 := s.(atCheck := 1, inBody := 0, recording := if RunBody(o).releasesRecording then false else s.recording);
      var s2 := s.(recording := true);
      var d: seq<Call> := if o.Ok? then [Call(s.callback, o.text)] else [];
      assert Next(s, Body(o)) == Step(s1, if o.Ok? then Some(Call(s.callback, o.text)) else None);
      assert Next(s1, Check) == Step(s2, None);
      RunCons(s1, Check, []);
      RunCons(s, Body(o), [Check]);
      assert Run(s, head) == Trace(s2, d);
      RunAppend(s, head, Cycles(outcomes[1..]));
      LoopCallsBackWithOkTexts(s2, outcomes[1..]);
      assert CallsTo(s.callback, OkTexts(outcomes)) == d + CallsTo(s.callback, OkTexts(outcomes[1..]));
    }
  }
}
